=== FILE: README.md ===
# junixsocket: AF_UNIX datagram socket, pipe and descriptor passing, in Dafny

This project models three parts of junixsocket, the Java library for AF_UNIX sockets. It
proves properties of each model.

- **`AFUNIXDatagramSocket`** (`datagram.dfy`, module `DatagramSocket`). The socket is an
  immutable record:
  - the JDK's `closed`, `bound` and `connected` flags;
  - whether the implementation's descriptor is closed;
  - the local and remote addresses;
  - the delete-on-close flag;
  - the ancillary-data state.

  Every operation is a pure guarded transition. It returns the next socket and either a
  value or the exception the Java code throws. `isClosed` is the predicate `IsClosed`: closed
  at the JDK level or at the implementation level. Kernel calls are parameters that carry
  their outcome: bind, connect, send, peer credentials and the packet queue.
- **The ancillary-data contract** (`ancillary.dfy`, module `Ancillary`). It covers, per
  socket:
  - the batch of descriptors staged for the next send;
  - the one pending batch of received descriptors;
  - the ancillary receive-buffer size.

  `TakeOutbound` is the write hook and `OnReceive` the read hook. How many descriptors a
  buffer of a given size holds is a `Platform` parameter. So is whether an oversized batch
  fails the receive ("No buffer space available") or is cut down to what fits.
- **Stream traces** (`stream_link.dfy`, module `StreamLink`). A connected pair of stream
  sockets, reduced to three parts: the writer's staging, the writes in flight with their
  descriptor batches, and the reader's pending batch. Traces of application operations run
  over it. Bookkeeping multisets support a conservation invariant: every descriptor sent is
  either handed out by a drain, pending, in flight, or discarded.
- **`AFUNIXPipe`** (`pipe.dfy`, module `UnixPipe`). A source core and a sink core. The bytes
  written and not yet read are kept in the record, standing for the kernel's buffer. The
  record also holds the options flag.
- **The descriptor-passing tests** (`scenarios.dfy`, module `Scenarios`). Each
  `FileDescriptorsTest` scenario is a lemma about a trace: what every step observes.

`io.dfy` holds the shared `Option`/`Result` wrappers, bytes, error kinds and OS outcomes.

Two behaviours to note:
- A stream read at the end of the stream returns -1, as `FileDescriptorsTest.java:90` asserts.
- A second delivery of descriptors before a drain joins the one pending batch. This is a
  modelling choice (see "## Left out"). Nothing is lost, and there is still never more than
  one batch.

## Model

| member | source | states |
|---|---|---|
| DatagramSocket.NewInstance | junixsocket-common/src/main/java/org/newsclub/net/unix/AFUNIXDatagramSocket.java:39-50 | a new socket is open, unbound and unconnected, with delete-on-close true, no addresses, nothing staged and a receive buffer of 0 |
| DatagramSocket.Bind | junixsocket-common/src/main/java/org/newsclub/net/unix/AFUNIXDatagramSocket.java:141-159 | on a closed socket fails "Socket is closed", on a bound one "already bound", leaving the socket unchanged either way; otherwise the socket is bound; a successful bind makes exactly the given endpoint (the anonymous one for null) the socket's local address, as `getLocalSocketAddress` reports it; a refused impl bind closes the socket and rethrows the refusal |
| DatagramSocket.EnsureBound | junixsocket-common/src/main/java/org/newsclub/net/unix/AFUNIXDatagramSocket.java:83-85 | an open bound socket is left alone; an unbound one gets the implicit bind, after which it is open and bound if the bind succeeded |
| DatagramSocket.Send | junixsocket-common/src/main/java/org/newsclub/net/unix/AFUNIXDatagramSocket.java:77-88 | fails "Socket is closed" on a closed socket without change; otherwise the socket ends up bound; succeeds exactly when open, bound (or the implicit bind succeeded) and the kernel accepts; the packet carries the staged batch and the staging is cleared; a refused implicit bind fails with its own message and closes the socket; a kernel refusal is passed on unchanged; delete-on-close, the peer, the buffer size and the pending batch are kept, and on a bound socket nothing but the staging changes |
| DatagramSocket.Connect | junixsocket-common/src/main/java/org/newsclub/net/unix/AFUNIXDatagramSocket.java:90-103 | on a closed unbound socket the implicit bind fails "Socket is closed"; otherwise it succeeds exactly when the socket is bound (or the implicit bind succeeded) and the impl connects, and then the peer is the remote address; an open socket's JDK connected flag is set before the impl connect, a closed socket's is left alone; an impl failure is rethrown through the `catch` clauses, so every failure is a SocketException or a runtime exception from the impl passed on unchanged; a bound socket keeps its local address, and a failed connect keeps the previous peer |
| DatagramSocket.AsSocketError | junixsocket-common/src/main/java/org/newsclub/net/unix/AFUNIXDatagramSocket.java:96-102 | exactly the IOExceptions become SocketExceptions: a SocketException passes unchanged, another IOException keeps its message, a ClosedChannelException gives a null message; anything else passes uncaught |
| DatagramSocket.AsSocketErrorIdempotent | junixsocket-common/src/main/java/org/newsclub/net/unix/AFUNIXDatagramSocket.java:98-99 | a rethrown exception passes the same `catch` clauses unchanged |
| DatagramSocket.ConnectInet | junixsocket-common/src/main/java/org/newsclub/net/unix/AFUNIXDatagramSocket.java:52-55 | always IllegalArgumentException "Cannot connect to InetAddress", nothing changes |
| DatagramSocket.Peek | junixsocket-common/src/main/java/org/newsclub/net/unix/AFUNIXDatagramSocket.java:68-75 | fails "Socket is closed" on a closed socket; otherwise returns the head packet's payload without dequeuing it and captures the descriptors the buffer lets through; on an open socket with a queued packet it fails exactly when the packet's batch does not fit the buffer on a platform that reports this, and then with "No buffer space available" and the socket unchanged; a successful peek changes only the pending descriptors |
| DatagramSocket.Receive | junixsocket-common/src/test/java/org/newsclub/net/unix/FileDescriptorsTest.java:379-383 | dequeues the head packet, returns its payload and captures the descriptors the buffer lets through; it fails exactly when the batch does not fit the buffer on a platform that reports this, and then with "No buffer space available", the packet consumed and the socket unchanged; a successful receive changes only the pending descriptors; a closed socket or empty queue fails with nothing dequeued |
| DatagramSocket.CloseAsWritten | junixsocket-common/src/main/java/org/newsclub/net/unix/AFUNIXDatagramSocket.java:113-138 | close in the order the code uses (impl closed, then the local address looked up) leaves the socket closed and never yields a path to delete |
| DatagramSocket.CloseAsWrittenNeverDeletes | junixsocket-common/src/main/java/org/newsclub/net/unix/AFUNIXDatagramSocket.java:120-124 | whatever the socket, the as-written close attempts no deletion |
| DatagramSocket.CloseDiffersFromAsWritten | junixsocket-common/src/main/java/org/newsclub/net/unix/AFUNIXDatagramSocket.java:120-128 | for a fresh socket bound to "/tmp/ds1" the as-written close deletes nothing while the intended close deletes "/tmp/ds1" |
| DatagramSocket.DeletionTarget | junixsocket-common/src/main/java/org/newsclub/net/unix/AFUNIXDatagramSocket.java:121-135 | a path is returned exactly when the socket was bound, delete-on-close is set and the address is a filesystem path, and it is that path |
| DatagramSocket.JdkLocalAddress | junixsocket-common/src/main/java/org/newsclub/net/unix/AFUNIXDatagramSocket.java:123 | the JDK's local address is null on a closed socket and the bound address otherwise |
| DatagramSocket.Close | junixsocket-common/src/main/java/org/newsclub/net/unix/AFUNIXDatagramSocket.java:113-138 | (corrected; see ## Findings) afterwards closed; on a closed socket nothing changes and nothing is deleted; deletion of a path is attempted exactly when the socket was open, bound, delete-on-close set and the local address a filesystem path, and then it is that path; nothing but the closed state changes |
| DatagramSocket.CloseIdempotent | junixsocket-common/src/main/java/org/newsclub/net/unix/AFUNIXDatagramSocket.java:117-119 | a second close returns the same socket and attempts no deletion |
| DatagramSocket.GetLocalSocketAddress | junixsocket-common/src/main/java/org/newsclub/net/unix/AFUNIXDatagramSocket.java:161-174 | null when closed or unbound, the bound address otherwise |
| DatagramSocket.GetRemoteSocketAddress | junixsocket-common/src/main/java/org/newsclub/net/unix/AFUNIXDatagramSocket.java:105-111 | null when not connected or when the descriptor is closed, the connected peer otherwise |
| DatagramSocket.BindThenLocalAddress | junixsocket-common/src/main/java/org/newsclub/net/unix/AFUNIXDatagramSocket.java:141-174 | after a successful bind the local address is the bound one; after a close it is null |
| DatagramSocket.SetDeleteOnClose | junixsocket-common/src/main/java/org/newsclub/net/unix/AFUNIXDatagramSocket.java:198-200 | the flag reads back as set and nothing else changes |
| DatagramSocket.DeleteOnCloseRoundTrip | junixsocket-common/src/main/java/org/newsclub/net/unix/AFUNIXDatagramSocket.java:185-200 | set/get round-trips, setting the old value back restores the socket, and a new socket has the flag set |
| DatagramSocket.SetOutboundFileDescriptors | junixsocket-common/src/main/java/org/newsclub/net/unix/AFUNIXDatagramSocket.java:238-244 | a non-empty array on an unconnected socket fails "Not connected" and changes nothing; otherwise the array is forwarded and outbound descriptors are pending exactly when it is non-empty |
| DatagramSocket.GetReceivedFileDescriptors | junixsocket-common/src/main/java/org/newsclub/net/unix/AFUNIXDatagramSocket.java:228-231 | returns the pending batch (never an empty one) or null when none is pending, and forgets it |
| DatagramSocket.ClearReceivedFileDescriptors | junixsocket-common/src/main/java/org/newsclub/net/unix/AFUNIXDatagramSocket.java:233-236 | nothing is pending afterwards; the staged batch, the buffer size and every socket field are unchanged |
| DatagramSocket.SetAncillaryReceiveBufferSize | junixsocket-common/src/main/java/org/newsclub/net/unix/AFUNIXDatagramSocket.java:218-221 | the size reads back as set; the staged and pending batches and every socket field are unchanged |
| DatagramSocket.EnsureAncillaryReceiveBufferSize | junixsocket-common/src/main/java/org/newsclub/net/unix/AFUNIXDatagramSocket.java:223-226 | the size never shrinks and reaches at least the minimum; the staged and pending batches and every socket field are unchanged |
| DatagramSocket.GetPeerCredentials | junixsocket-common/src/main/java/org/newsclub/net/unix/AFUNIXDatagramSocket.java:251-257 | "Not connected" unless the socket is open and connected, then the implementation's answer |
| DatagramSocket.PeerCredentialsFollowConnect | junixsocket-common/src/main/java/org/newsclub/net/unix/AFUNIXDatagramSocket.java:251-257 | a new socket has no peer credentials; after a successful connect of an open socket they are the implementation's answer; after close they are refused again |
| DatagramSocket.ClosedLifecycle | junixsocket-common/src/main/java/org/newsclub/net/unix/AFUNIXDatagramSocket.java:259-262 | a new socket is open; close and a refused bind close it; no bind, send, connect or receive reopens a closed socket |
| DatagramSocket.DeleteOnCloseDecidesDeletion | junixsocket-common/src/main/java/org/newsclub/net/unix/AFUNIXDatagramSocket.java:185-187 | for an open socket bound to a filesystem path, close tries to delete the path exactly when `isDeleteOnClose` holds |
| DatagramSocket.StagedUntilSent | junixsocket-common/src/main/java/org/newsclub/net/unix/AFUNIXDatagramSocket.java:246-249 | `hasOutboundFileDescriptors` is false on a new socket, true after staging a non-empty batch on a connected socket, false after the next send (which carries that batch) or after staging null |
| DatagramSocket.ReceiveBufferSizeRoundTrip | junixsocket-common/src/main/java/org/newsclub/net/unix/AFUNIXDatagramSocket.java:213-226 | `getAncillaryReceiveBufferSize` is 0 on a new socket, reads back a set size, becomes the larger of the two sizes after ensure, and a receive keeps it |
| Ancillary.Fresh | junixsocket-common/src/test/java/org/newsclub/net/unix/FileDescriptorsTest.java:198-206 | nothing staged, nothing received, a receive buffer of size 0 |
| Ancillary.SetOutbound | junixsocket-common/src/test/java/org/newsclub/net/unix/FileDescriptorsTest.java:58-59 | outbound descriptors are pending exactly when the array is non-empty, and then they are that array |
| Ancillary.TakeOutbound | junixsocket-common/src/test/java/org/newsclub/net/unix/FileDescriptorsTest.java:58-63 | the send gets exactly the staged batch and nothing is staged afterwards |
| Ancillary.StageThenSend | junixsocket-common/src/test/java/org/newsclub/net/unix/FileDescriptorsTest.java:218-226 | staging a batch makes it pending, the next send takes exactly it, the send after that takes nothing |
| Ancillary.Surfaced | junixsocket-common/src/test/java/org/newsclub/net/unix/FileDescriptorsTest.java:234-246 | the part of a batch that a receive buffer lets through is a prefix of it, all of it when it fits and exactly as many as fit otherwise |
| Ancillary.OnReceive | junixsocket-common/src/test/java/org/newsclub/net/unix/FileDescriptorsTest.java:200-204 | the receive fails exactly when the batch does not fit and the platform reports it, with "No buffer space available"; otherwise what fits joins the pending descriptors |
| Ancillary.Drain | junixsocket-common/src/test/java/org/newsclub/net/unix/FileDescriptorsTest.java:75-86 | returns the pending descriptors, or null when there are none, and leaves nothing pending; in a valid state the result is exactly the pending batch |
| Ancillary.ReceiveThenDrainTwice | junixsocket-common/src/test/java/org/newsclub/net/unix/FileDescriptorsTest.java:78-86 | a fitting batch received with nothing pending is drained whole, and a second drain yields null |
| Ancillary.ZeroBufferSurfacesNothing | junixsocket-common/src/test/java/org/newsclub/net/unix/FileDescriptorsTest.java:198-206 | with a buffer of size 0 no descriptor surfaces, and the receive can fail only when descriptors arrived |
| Ancillary.UndersizedBufferOutcomes | junixsocket-common/src/test/java/org/newsclub/net/unix/FileDescriptorsTest.java:234-253 | with two descriptors and a buffer that holds one or reports truncation, a successful receive surfaces 1 or 2 of them, in order, and the next drain yields null |
| Ancillary.EnsureReceiveBufferSize | junixsocket-common/src/main/java/org/newsclub/net/unix/AFUNIXDatagramSocket.java:223-226 | the size never shrinks, reaches at least the minimum, and is one of the two |
| StreamLink.ReadOnce | junixsocket-common/src/test/java/org/newsclub/net/unix/FileDescriptorsTest.java:78-92 | a read takes bytes of the head write only, in order, at most the limit; -1 at the end of a closed stream; the head batch surfaces (or fails the read) with the first byte read; every byte and descriptor is accounted for: returned, pending, dropped or still in flight |
| StreamLink.ReadToEnd | junixsocket-common/src/test/java/org/newsclub/net/unix/FileDescriptorsTest.java:78-92 | reading the whole stream and draining after each read yields exactly the bytes written and exactly the descriptors sent, in order |
| StreamLink.StagedBatchArrives | junixsocket-common/src/test/java/org/newsclub/net/unix/FileDescriptorsTest.java:58-86 | for every batch that fits the reader's buffer and any bytes: staging, writing, reading and draining yields exactly the staged batch, with a non-empty prefix of the bytes read |
| StreamLink.Step | junixsocket-common/src/test/java/org/newsclub/net/unix/FileDescriptorsTest.java:58-92 | a non-empty write on an open stream consumes the staging; an accepted write puts exactly its bytes and the staged batch on the wire and leaves the reader alone, a refused one puts nothing there and reports the refusal; staging changes only the writer; a drain leaves nothing pending and returns what was pending |
| StreamLink.RunConserves | junixsocket-common/src/test/java/org/newsclub/net/unix/FileDescriptorsTest.java:82-92 | every trace keeps the count: handed out + pending + in flight + discarded = sent |
| StreamLink.NeverDuplicated | junixsocket-common/src/test/java/org/newsclub/net/unix/FileDescriptorsTest.java:82-86 | from a fresh connection, no trace hands out a descriptor more often than it was sent |
| Scenarios.SendRecvFileDescriptors | junixsocket-common/src/test/java/org/newsclub/net/unix/FileDescriptorsTest.java:52-96 | staging stdin and stderr, writing "HELLO" and reading: no descriptors before the read, both after it, none on the next drain, then end of stream with none; the staging is gone once the output stream is closed |
| Scenarios.NullOrEmptyDescriptorArray | junixsocket-common/src/test/java/org/newsclub/net/unix/FileDescriptorsTest.java:98-146 | a null or empty array stages nothing and the byte arrives without descriptors |
| Scenarios.BadFileDescriptor | junixsocket-common/src/test/java/org/newsclub/net/unix/FileDescriptorsTest.java:148-177 | the refused send throws, the staging is consumed anyway, the reader sees only the end of the stream |
| Scenarios.NoAncillaryReceiveBuffer | junixsocket-common/src/test/java/org/newsclub/net/unix/FileDescriptorsTest.java:179-209 | without a receive buffer the read returns the byte or throws, no descriptor surfaces, the size reads 0 |
| Scenarios.AncillaryReceiveBufferTooSmall | junixsocket-common/src/test/java/org/newsclub/net/unix/FileDescriptorsTest.java:211-256 | with a 13-byte buffer the read throws, or it returns the byte and the drain yields one or both descriptors in order; the next drain yields none |
| Scenarios.FileInputStreamDescriptor | junixsocket-common/src/test/java/org/newsclub/net/unix/FileDescriptorsTest.java:258-305 | one staged descriptor travels with "HELLO" and is the one drained after the read |
| Scenarios.DatagramSocketDescriptor | junixsocket-common/src/test/java/org/newsclub/net/unix/FileDescriptorsTest.java:359-383 | between two datagram sockets bound to paths and connected to each other, the send consumes the staging and the peer drains exactly the staged descriptor after its receive |
| Scenarios.PeekThenReceive | junixsocket-common/src/main/java/org/newsclub/net/unix/AFUNIXDatagramSocket.java:57-75 | a peek and a receive of the same packet return the same payload and, drained after each, the same batch (none for a packet without descriptors); only the receive dequeues |
| UnixPipe.Open | junixsocket-common/src/main/java/org/newsclub/net/unix/AFUNIXPipe.java:41-52 | fails exactly when initialisation fails; the options are non-socket exactly when the pair is not a socket pair; both ends start open and empty with the given descriptors |
| UnixPipe.Read | junixsocket-common/src/main/java/org/newsclub/net/unix/AFUNIXPipe.java:106-109 | fails on a closed source; otherwise moves a prefix of the buffered bytes that fits into the destination; -1 exactly when the sink is closed and nothing is left; never 0 when bytes and room are available; a read that returns 0 or -1 leaves the pipe and the destination unchanged |
| UnixPipe.ScatterRead | junixsocket-common/src/main/java/org/newsclub/net/unix/AFUNIXPipe.java:93-99 | a zero length returns 0 and touches nothing; an offset outside the array fails with an index error; otherwise it is a single read into `dsts[offset]` and every other buffer is untouched |
| UnixPipe.ReadArray | junixsocket-common/src/main/java/org/newsclub/net/unix/AFUNIXPipe.java:101-104 | reading the whole array is the scatter read from 0 over its length, so only the first buffer is filled |
| UnixPipe.Write | junixsocket-common/src/main/java/org/newsclub/net/unix/AFUNIXPipe.java:146-149 | fails on a closed sink; otherwise all bytes are appended to what the source can read |
| UnixPipe.GatherWrite | junixsocket-common/src/main/java/org/newsclub/net/unix/AFUNIXPipe.java:133-139 | a zero length returns 0 and touches nothing; an offset outside the array fails with an index error; otherwise it is a single write of `srcs[offset]` and every other buffer is untouched |
| UnixPipe.WriteArray | junixsocket-common/src/main/java/org/newsclub/net/unix/AFUNIXPipe.java:141-144 | writing the whole array is the gather write from 0 over its length, so only the first buffer is written |
| UnixPipe.CloseSource | junixsocket-common/src/main/java/org/newsclub/net/unix/AFUNIXPipe.java:116-119 | closes only the source core; the sink and the buffered bytes are unchanged; fails only on the first close, when the descriptor close fails |
| UnixPipe.CloseSink | junixsocket-common/src/main/java/org/newsclub/net/unix/AFUNIXPipe.java:156-159 | closes only the sink core; the source and the buffered bytes are unchanged; fails only on the first close, when the descriptor close fails |
| UnixPipe.Close | junixsocket-common/src/main/java/org/newsclub/net/unix/AFUNIXPipe.java:78-85 | both ends end up closed even when closing the source fails; the sink's exception replaces the source's; succeeds exactly when neither close fails |
| UnixPipe.CloseIdempotent | junixsocket-common/src/main/java/org/newsclub/net/unix/AFUNIXPipe.java:78-85 | closing a closed pipe changes nothing and succeeds |
| UnixPipe.SourceCloseKeepsSinkOpen | junixsocket-common/src/main/java/org/newsclub/net/unix/AFUNIXPipe.java:116-119 | closing the source channel leaves the sink core, both descriptors and the buffered bytes untouched |
| UnixPipe.DescriptorsStable | junixsocket-common/src/main/java/org/newsclub/net/unix/AFUNIXPipe.java:70-76 | each end keeps the descriptor it was opened with through reads, writes and closes; `sourceFD` and `sinkFD` report the descriptors passed at creation |
| UnixPipe.WriteThenRead | junixsocket-common/src/main/java/org/newsclub/net/unix/AFUNIXPipe.java:146-149 | bytes written to an empty open pipe are read back unchanged by one read with room for them |
| UnixPipe.SinkCloseKeepsBufferedBytes | junixsocket-common/src/main/java/org/newsclub/net/unix/AFUNIXPipe.java:156-159 | closing the sink loses no buffered bytes; the source reads them all, then sees the end of the stream |

## Left out

- `AncillaryDataSupport` and `AFUNIXCore` are not part of this model. Their behaviour is
  taken from what the tests assert and from the forwarding calls in the socket and the pipe.
  Merging a second delivery into the pending batch is a modelling choice.
- The clamping and overflow checks of `setAncillaryReceiveBufferSize` (the size becomes a
  buffer of descriptor slots) are left out. The size is kept exactly as set, as
  `setAncillaryReceiveBufferSize0` does.
- Blocking is not modelled: no waiting for a packet or for bytes, and no
  `implConfigureBlocking`. An empty datagram queue or stream wire gives `WouldBlock`. An
  empty pipe with an open sink reads 0.
- Concurrency is not modelled: the `synchronized` blocks, the unsynchronized `close` that
  unblocks a pending read, and the lazy creation of the implementation (`getAFImpl`).
- Address handling is not modelled. `preprocessSocketAddress` and the encoding of addresses
  are left out. An endpoint is a path, an abstract name, or anonymous. A null bind address
  binds the anonymous endpoint.
- DatagramSocket.AsSocketError: `WouldBlock` stands for a wait, not an exception. It passes
  through unchanged, like any exception the `catch` clauses do not name.
- Kernel behaviour is not modelled beyond the outcome parameters:
  - what a passed descriptor refers to (shared offsets, independent close);
  - partial writes;
  - broken pipes;
  - the deletion of the socket file itself. A close only returns the path it would delete.
- UnixPipe.Read, UnixPipe.Write: a read or write on a closed channel is modelled as
  `ClosedChannelException`. A write on an open sink always transfers all bytes, even after the
  source is closed, where a real pipe fails with a broken pipe.
- StreamLink.ReadOnce: a read never spans two writes. A real stream socket may return the bytes
  of several writes without descriptors in one read; the model returns them one write at a time.
- StreamLink.Step: an empty write sends nothing and keeps the staging. The stream write code
  is not part of this model, so this is a modelling choice.
- UnixPipe.ScatterRead, UnixPipe.GatherWrite: `offset` is not checked against `length` or
  for a negative `length`. Only an index outside the array fails, as the array access in the
  code does.
- `reflection.c` (native field and method lookups) and `AvailableTest` (timing between
  threads) are not part of this model.

## Findings

| source | as written | input that shows it | evidently intended | confidence | as-written member | corrected member |
|---|---|---|---|---|---|---|
| junixsocket-common/src/main/java/org/newsclub/net/unix/AFUNIXDatagramSocket.java:120-124 | `close` closes the implementation first and only then asks `getLocalAddress()`; on JDKs whose `DatagramSocket.getLocalAddress` answers null once the overridden `isClosed()` holds, the address is always null and the socket file is never deleted | a socket bound to `/tmp/ds1` with delete-on-close set, then closed | look up the local address before closing the implementation, so the bound path is deleted | low: unconfirmed; depends on the JDK's `getLocalAddress`; not executed | DatagramSocket.CloseAsWritten | DatagramSocket.Close |

=== FILE: ancillary.dfy ===
/**
 * The per-socket ancillary-data state: descriptors staged for the next send, the one pending
 * batch of descriptors that arrived with a receive, and the size of the buffer offered to the
 * kernel for ancillary messages. The state owns no I/O; the socket calls `TakeOutbound` right
 * before a send and `OnReceive` right after a receive.
 */
module Ancillary {
  import opened Wrappers
  import opened Io

  /** A file descriptor, identified by the open file it refers to. */
  datatype Fd = Fd(id: int)

  /** The descriptors that travel together with one send or one receive. */
  type Batch = seq<Fd>

  /**
   * How the operating system treats the ancillary receive buffer: `capacity(n)` is how many
   * descriptors fit into a buffer of `n` bytes, and `raisesOnTruncation` says whether a batch
   * that does not fit makes the receive fail ("No buffer space available") or is cut down to
   * what fits.
   */
  datatype Platform = Platform(capacity: nat -> nat, raisesOnTruncation: bool)

  /** Every platform: a buffer of zero bytes holds no descriptor. */
  predicate ValidPlatform(p: Platform) {
    p.capacity(0) == 0
  }

  datatype Support = Support(outbound: Batch, pending: Option<Batch>, bufferSize: nat)

  /** A pending batch, when present, holds at least one descriptor. */
  predicate Valid(s: Support) {
    s.pending.Some? ==> |s.pending.value| > 0
  }

  /** The descriptors received and not yet drained, in arrival order. */
  function Received(s: Support): Batch {
    match s.pending
    case None => []
    case Some(b) => b
  }

  /** The state of a new socket: nothing staged, nothing received, no receive buffer. */
  function Fresh(): (s: Support)
    ensures Valid(s)
    ensures s.outbound == [] && Received(s) == []
    ensures s.bufferSize == 0
  {
    Support([], None, 0)
  }

  /** `hasOutboundFileDescriptors`: a non-empty batch is staged and not yet sent. */
  predicate HasOutbound(s: Support) {
    |s.outbound| > 0
  }

  /**
   * `setOutboundFileDescriptors`: replaces the staged batch; `None` (a null array) and an
   * empty array both clear it.
   */
  function SetOutbound(s: Support, fds: Option<Batch>): (r: Support)
    ensures HasOutbound(r) <==> fds.Some? && |fds.value| > 0
    ensures HasOutbound(r) ==> r.outbound == fds.value
    ensures r.pending == s.pending && r.bufferSize == s.bufferSize
  {
    s.(outbound := fds.GetOr([]))
  }

  /**
   * The write hook: hands the staged batch to the send that is about to happen and clears the
   * staging, whether or not the send then succeeds, so that a batch is never sent twice.
   */
  function TakeOutbound(s: Support): (r: (Support, Batch))
    ensures !HasOutbound(r.0)
    ensures HasOutbound(s) <==> |r.1| > 0
    ensures r.1 == s.outbound
    ensures r.0.pending == s.pending && r.0.bufferSize == s.bufferSize
  {
    (s.(outbound := []), s.outbound)
  }

  /**
   * The part of an arriving batch that the receive buffer lets through: all of it when it
   * fits, otherwise the leading descriptors that fit.
   */
  function Surfaced(p: Platform, s: Support, arrived: Batch): (b: Batch)
    ensures b <= arrived
    ensures |b| <= p.capacity(s.bufferSize)
    ensures |arrived| <= p.capacity(s.bufferSize) ==> b == arrived
    ensures |arrived| > p.capacity(s.bufferSize) ==> |b| == p.capacity(s.bufferSize)
  {
    if |arrived| <= p.capacity(s.bufferSize) then arrived else arrived[..p.capacity(s.bufferSize)]
  }

  /** Adds descriptors to the one pending batch, creating it when there is none. */
  function Capture(s: Support, b: Batch): (r: Support)
    ensures Valid(s) ==> Valid(r)
    ensures Received(r) == Received(s) + b
    ensures r.outbound == s.outbound && r.bufferSize == s.bufferSize
  {
    if |b| == 0 then s else s.(pending := Some(Received(s) + b))
  }

  /**
   * The read hook, run after the kernel delivered `arrived` with one receive. A batch larger
   * than the buffer either fails the receive (and the kernel discards the batch) or is cut
   * down to what fits, depending on the platform. Descriptors that arrive while a batch is
   * still pending join that batch, so there is never more than one.
   */
  function OnReceive(p: Platform, s: Support, arrived: Batch): (r: Result<Support, Error>)
    ensures r.Failure? <==> |arrived| > p.capacity(s.bufferSize) && p.raisesOnTruncation
    ensures r.Failure? ==> r.error == SocketError(NoBufferSpace)
    ensures r.Success? ==> Received(r.value) == Received(s) + Surfaced(p, s, arrived)
    ensures r.Success? && Valid(s) ==> Valid(r.value)
    ensures r.Success? ==> r.value.outbound == s.outbound && r.value.bufferSize == s.bufferSize
  {
    if |arrived| > p.capacity(s.bufferSize) && p.raisesOnTruncation then
      Failure(SocketError(NoBufferSpace))
    else
      Success(Capture(s, Surfaced(p, s, arrived)))
  }

  /**
   * `getReceivedFileDescriptors`: returns and forgets the pending batch; `None` when no
   * descriptor is pending.
   */
  function Drain(s: Support): (r: (Support, Option<Batch>))
    ensures Received(r.0) == [] && Valid(r.0)
    ensures r.1.None? <==> Received(s) == []
    ensures r.1.Some? ==> r.1.value == Received(s)
    ensures Valid(s) ==> r.1 == s.pending
    ensures r.0.outbound == s.outbound && r.0.bufferSize == s.bufferSize
  {
    (s.(pending := None), if Received(s) == [] then None else Some(Received(s)))
  }

  /** `clearReceivedFileDescriptors`: forgets the pending batch without returning it. */
  function ClearReceived(s: Support): (r: Support)
    ensures Received(r) == [] && Valid(r)
    ensures r.outbound == s.outbound && r.bufferSize == s.bufferSize
  {
    s.(pending := None)
  }

  /** `setAncillaryReceiveBufferSize`: sets the buffer size exactly. */
  function SetReceiveBufferSize(s: Support, size: nat): (r: Support)
    ensures r.bufferSize == size
    ensures r.outbound == s.outbound && r.pending == s.pending
  {
    s.(bufferSize := size)
  }

  /** `ensureAncillaryReceiveBufferSize`: grows the buffer to at least `minSize`, never shrinks it. */
  function EnsureReceiveBufferSize(s: Support, minSize: int): (r: Support)
    ensures r.bufferSize >= s.bufferSize && r.bufferSize >= minSize
    ensures r.bufferSize == s.bufferSize || r.bufferSize == minSize
    ensures r.outbound == s.outbound && r.pending == s.pending
  {
    if minSize > s.bufferSize then s.(bufferSize := minSize) else s
  }

  /** Staging a batch and sending hands exactly that batch to the send, once. */
  lemma StageThenSend(s: Support, b: Batch)
    requires |b| > 0
    ensures HasOutbound(SetOutbound(s, Some(b)))
    ensures TakeOutbound(SetOutbound(s, Some(b))).1 == b
    ensures !HasOutbound(TakeOutbound(SetOutbound(s, Some(b))).0)
    ensures TakeOutbound(TakeOutbound(SetOutbound(s, Some(b))).0).1 == []
  {
  }

  /** A batch that fits the buffer and arrives when nothing is pending is drained whole, then never again. */
  lemma ReceiveThenDrainTwice(p: Platform, s: Support, b: Batch)
    requires Received(s) == []
    requires 0 < |b| <= p.capacity(s.bufferSize)
    ensures OnReceive(p, s, b).Success?
    ensures Drain(OnReceive(p, s, b).value).1 == Some(b)
    ensures Drain(Drain(OnReceive(p, s, b).value).0).1 == None
  {
    assert Received(s) + b == b;
  }

  /** With a receive buffer of size zero no descriptor ever surfaces. */
  lemma ZeroBufferSurfacesNothing(p: Platform, s: Support, arrived: Batch)
    requires ValidPlatform(p)
    requires s.bufferSize == 0
    ensures OnReceive(p, s, arrived).Success? ==> Received(OnReceive(p, s, arrived).value) == Received(s)
    ensures OnReceive(p, s, arrived).Failure? ==> |arrived| > 0
  {
  }

  /**
   * A two-descriptor batch through an undersized buffer: the receive fails, or one or both
   * descriptors surface, and the next drain empties the state.
   */
  lemma UndersizedBufferOutcomes(p: Platform, s: Support, b: Batch)
    requires Received(s) == []
    requires |b| == 2
    requires p.raisesOnTruncation || p.capacity(s.bufferSize) >= 1
    ensures OnReceive(p, s, b).Success? ==>
              var got := Drain(OnReceive(p, s, b).value).1;
              got.Some? && 1 <= |got.value| <= 2 && got.value <= b
    ensures OnReceive(p, s, b).Success? ==> Drain(Drain(OnReceive(p, s, b).value).0).1 == None
  {
  }
}

=== FILE: datagram.dfy ===
/**
 * `AFUNIXDatagramSocket`: the lifecycle of an AF_UNIX datagram socket as guarded transitions
 * over an immutable record. The kernel calls (bind, connect, send, peer credentials) are
 * parameters carrying their outcome; the kernel's queue of packets addressed to this socket is
 * a sequence passed to `Peek` and `Receive`.
 */
module DatagramSocket {
  import opened Wrappers
  import opened Io
  import opened Ancillary

  /** An AF_UNIX address: a filesystem path, a name in the abstract namespace, or none. */
  datatype Endpoint = FsPath(path: string) | AbstractName(name: string) | Anonymous {
    /** Only a filesystem path leaves a socket file behind to delete. */
    predicate HasFilename() {
      FsPath?
    }
  }

  /** One datagram: its payload and the descriptors sent along with it. */
  datatype Packet = Packet(payload: seq<Byte>, fds: Batch)

  /** Peer credentials as reported by the kernel. */
  datatype Credentials = Credentials(pid: int, uid: int, gids: seq<int>)

  /**
   * `jdkClosed`, `bound` and `connected` are the flags kept by `java.net.DatagramSocket`;
   * `implClosed` is the state of the AF_UNIX implementation's descriptor. `local` and `remote`
   * are the addresses the kernel knows for the descriptor.
   */
  datatype Socket = Socket(jdkClosed: bool, implClosed: bool, bound: bool, connected: bool,
                           local: Option<Endpoint>, remote: Option<Endpoint>,
                           deleteOnClose: bool, anc: Support)

  /** The socket after an operation, and what the operation returned or threw. */
  datatype Step<T> = Step(next: Socket, ret: Result<T, Error>)

  /** What impl.bind reported; it can only throw a SocketException. */
  datatype BindOutcome = BindOk | BindRefused(msg: string)

  /** `newInstance`: open, unbound, unconnected, deleting its socket file on close. */
  function NewInstance(): (s: Socket)
    ensures !IsClosed(s) && !s.bound && !s.connected
    ensures IsDeleteOnClose(s)
    ensures GetLocalSocketAddress(s) == None && GetRemoteSocketAddress(s) == None
    ensures !HasOutboundFileDescriptors(s) && GetAncillaryReceiveBufferSize(s) == 0
  {
    Socket(false, false, false, false, None, None, true, Ancillary.Fresh())
  }

  /** `isClosed`: closed at the JDK level or at the implementation level. */
  predicate IsClosed(s: Socket) {
    s.jdkClosed || s.implClosed
  }

  /** The failure every guarded operation reports on a closed socket. */
  function RefuseClosed<T>(s: Socket): (r: Step<T>)
    ensures r.next == s && r.ret == Failure(SocketError(SocketIsClosed))
  {
    Step(s, Failure(SocketError(SocketIsClosed)))
  }

  /**
   * `bind`: refused on a closed or already-bound socket; a null address binds the anonymous
   * endpoint. The JDK marks the socket bound before the implementation binds; when the
   * implementation refuses, its descriptor is closed and the exception rethrown.
   */
  function Bind(s: Socket, addr: Option<Endpoint>, os: BindOutcome): (r: Step<()>)
    ensures IsClosed(s) ==> r == Step(s, Failure(SocketError(SocketIsClosed)))
    ensures !IsClosed(s) && s.bound ==> r == Step(s, Failure(SocketError(AlreadyBound)))
    ensures !IsClosed(s) && !s.bound ==> r.next.bound
    ensures !IsClosed(s) && !s.bound && os.BindOk? ==>
              && r.ret.Success? && !IsClosed(r.next) && r.next.local == Some(addr.GetOr(Anonymous))
              && GetLocalSocketAddress(r.next) == Some(addr.GetOr(Anonymous))
    ensures !IsClosed(s) && !s.bound && os.BindRefused? ==>
              r.ret == Failure(SocketError(os.msg)) && IsClosed(r.next) && GetLocalSocketAddress(r.next) == None
    ensures r.next.connected == s.connected && r.next.remote == s.remote
    ensures r.next.deleteOnClose == s.deleteOnClose && r.next.anc == s.anc
  {
    if IsClosed(s) then RefuseClosed(s)
    else if s.bound then Step(s, Failure(SocketError(AlreadyBound)))
    else
      var jdkBound := s.(bound := true);
      match os
      case BindOk => Step(jdkBound.(local := Some(addr.GetOr(Anonymous))), Success(()))
      case BindRefused(msg) => Step(jdkBound.(implClosed := true), Failure(SocketError(msg)))
  }

  /** The implicit bind that `send` and `connect` perform on an unbound socket. */
  function EnsureBound(s: Socket, os: BindOutcome): (r: Step<()>)
    ensures r.ret.Success? ==> r.next.bound && !IsClosed(r.next)
    ensures s.bound && !IsClosed(s) ==> r == Step(s, Success(()))
    ensures !s.bound && !IsClosed(s) ==> r == Bind(s, None, os)
  {
    if s.bound && !IsClosed(s) then Step(s, Success(())) else Bind(s, None, os)
  }

  /**
   * `send`: refused on a closed socket; binds an unbound socket first. The staged descriptors
   * are attached to this packet and the staging is cleared, whether or not the kernel accepts
   * the packet.
   */
  function Send(s: Socket, payload: seq<Byte>, bindOs: BindOutcome, sendOs: OsResult): (r: Step<Packet>)
    ensures IsClosed(s) ==> r == RefuseClosed(s)
    ensures !IsClosed(s) ==> r.next.bound
    ensures !IsClosed(s) && (s.bound || bindOs.BindOk?) ==> !HasOutboundFileDescriptors(r.next)
    ensures r.ret.Success? ==> r.ret.value == Packet(payload, s.anc.outbound)
    ensures r.ret.Success? <==> !IsClosed(s) && (s.bound || bindOs.BindOk?) && sendOs.OsOk?
    ensures !IsClosed(s) && !s.bound && bindOs.BindRefused? ==>
              r.ret == Failure(SocketError(bindOs.msg)) && IsClosed(r.next)
    ensures !IsClosed(s) && (s.bound || bindOs.BindOk?) && sendOs.OsFail? ==> r.ret == Failure(sendOs.error)
    ensures r.next.connected == s.connected && r.next.anc.pending == s.anc.pending
    ensures r.next.deleteOnClose == s.deleteOnClose && r.next.remote == s.remote
    ensures r.next.anc.bufferSize == s.anc.bufferSize
    ensures s.bound ==> r.next.(anc := s.anc) == s
    ensures !IsClosed(s) && !s.bound && bindOs.BindOk? ==> r.next.local == Some(Anonymous)
  {
    if IsClosed(s) then RefuseClosed(s)
    else
      var b := EnsureBound(s, bindOs);
      if b.ret.Failure? then Step(b.next, Failure(b.ret.error))
      else
        var (anc, fds) := TakeOutbound(b.next.anc);
        var sent := b.next.(anc := anc);
        match sendOs
        case OsOk => Step(sent, Success(Packet(payload, fds)))
        case OsFail(e) => Step(sent, Failure(e))
  }

  /**
   * `connect(SocketAddress)`: binds an unbound socket first (which is refused on a closed
   * socket). The JDK then records the socket as connected, except on a closed socket, where
   * it returns early; the implementation's connect runs either way. An IOException from it
   * is rethrown as a SocketException with the same message; runtime exceptions pass through.
   */
  function Connect(s: Socket, addr: Endpoint, bindOs: BindOutcome, connectOs: OsResult): (r: Step<()>)
    ensures IsClosed(s) && !s.bound ==> r == Step(s, Failure(SocketError(SocketIsClosed)))
    ensures r.ret.Failure? ==>
              || r.ret.error.IsSocketException()
              || (connectOs.OsFail? && !connectOs.error.IsIOException() && r.ret.error == connectOs.error)
    ensures r.ret.Success? <==> (s.bound || (!IsClosed(s) && bindOs.BindOk?)) && connectOs.OsOk?
    ensures (s.bound || (!IsClosed(s) && bindOs.BindOk?)) && connectOs.OsFail? ==>
              r.ret == Failure(AsSocketError(connectOs.error))
    ensures r.ret.Success? ==> r.next.bound && r.next.remote == Some(addr)
    ensures r.ret.Success? && !IsClosed(s) ==> r.next.connected && GetRemoteSocketAddress(r.next) == Some(addr)
    ensures !IsClosed(s) && (s.bound || bindOs.BindOk?) ==> r.next.connected
    ensures IsClosed(s) ==> IsClosed(r.next) && r.next.connected == s.connected
    ensures r.next.anc == s.anc && r.next.deleteOnClose == s.deleteOnClose
    ensures s.bound ==> r.next.local == s.local
    ensures r.ret.Failure? ==> r.next.remote == s.remote
  {
    var b := if s.bound then Step(s, Success(())) else Bind(s, None, bindOs);
    if b.ret.Failure? then Step(b.next, Failure(b.ret.error))
    else
      var jdkConnected := if IsClosed(b.next) then b.next else b.next.(connected := true);
      match connectOs
      case OsOk => Step(jdkConnected.(remote := Some(addr)), Success(()))
      case OsFail(e) => Step(jdkConnected, Failure(AsSocketError(e)))
  }

  /**
   * The `catch` clauses of `connect`: a SocketException passes unchanged, any other
   * IOException becomes a SocketException carrying its message (null for a
   * ClosedChannelException), and anything else is not caught.
   */
  function AsSocketError(e: Error): (r: Error)
    ensures e.IsIOException() <==> r.IsSocketException()
    ensures !e.IsIOException() ==> r == e
    ensures e.IsSocketException() ==> r == e
    ensures e.IOError? ==> r == SocketError(e.msg)
    ensures e.ClosedChannel? ==> r == UnnamedSocketError
  {
    match e
    case IOError(msg) => SocketError(msg)
    case ClosedChannel => UnnamedSocketError
    case _ => e
  }

  /** Rethrowing is done once: a rethrown exception passes the same `catch` clauses unchanged. */
  lemma AsSocketErrorIdempotent(e: Error)
    ensures AsSocketError(AsSocketError(e)) == AsSocketError(e)
  {
  }

  /** `connect(InetAddress, int)`: always refused; nothing changes. */
  function ConnectInet(s: Socket, address: seq<int>, port: int): (r: Step<()>)
    ensures r.next == s
    ensures r.ret == Failure(IllegalArgument(CannotConnectInet))
  {
    Step(s, Failure(IllegalArgument(CannotConnectInet)))
  }

  /**
   * `peek`: refused on a closed socket; otherwise returns the payload of the next queued
   * packet without dequeuing it, capturing the descriptors that came with it.
   */
  function Peek(p: Platform, s: Socket, queue: seq<Packet>): (r: Step<seq<Byte>>)
    ensures IsClosed(s) ==> r == RefuseClosed(s)
    ensures !IsClosed(s) && queue == [] ==> r == Step(s, Failure(WouldBlock))
    ensures r.ret.Success? ==> queue != [] && r.ret.value == queue[0].payload
    ensures !IsClosed(s) && queue != [] ==>
              (r.ret.Failure? <==> |queue[0].fds| > p.capacity(s.anc.bufferSize) && p.raisesOnTruncation)
    ensures r.ret.Failure? && !IsClosed(s) && queue != [] ==> r.ret.error == SocketError(NoBufferSpace)
    ensures r.ret.Failure? ==> r.next == s
    ensures r.ret.Success? ==> Received(r.next.anc) == Received(s.anc) + Surfaced(p, s.anc, queue[0].fds)
    ensures r.next.bound == s.bound && r.next.connected == s.connected && IsClosed(r.next) == IsClosed(s)
    ensures r.next.(anc := s.anc) == s
    ensures r.next.anc.outbound == s.anc.outbound && r.next.anc.bufferSize == s.anc.bufferSize
  {
    if IsClosed(s) then RefuseClosed(s)
    else if queue == [] then Step(s, Failure(WouldBlock))
    else
      match OnReceive(p, s.anc, queue[0].fds)
      case Failure(e) => Step(s, Failure(e))
      case Success(anc) => Step(s.(anc := anc), Success(queue[0].payload))
  }

  /** A receive: the socket after it, the kernel queue after it, and the payload or exception. */
  datatype RecvStep = RecvStep(next: Socket, queue: seq<Packet>, ret: Result<seq<Byte>, Error>)

  /**
   * `receive`: refused on a closed socket; otherwise dequeues the next packet and captures the
   * descriptors that came with it. When they do not fit the receive buffer on a platform that
   * reports this, the packet is consumed and the receive fails.
   */
  function Receive(p: Platform, s: Socket, queue: seq<Packet>): (r: RecvStep)
    ensures IsClosed(s) ==> r == RecvStep(s, queue, Failure(SocketError(SocketIsClosed)))
    ensures !IsClosed(s) && queue == [] ==> r == RecvStep(s, queue, Failure(WouldBlock))
    ensures !IsClosed(s) && queue != [] ==> r.queue == queue[1..]
    ensures !IsClosed(s) && queue != [] ==>
              (r.ret.Failure? <==> |queue[0].fds| > p.capacity(s.anc.bufferSize) && p.raisesOnTruncation)
    ensures r.ret.Failure? && !IsClosed(s) && queue != [] ==> r.ret.error == SocketError(NoBufferSpace)
    ensures r.ret.Failure? ==> r.next == s
    ensures r.ret.Success? ==> queue != [] && r.ret.value == queue[0].payload
    ensures r.ret.Success? ==> Received(r.next.anc) == Received(s.anc) + Surfaced(p, s.anc, queue[0].fds)
    ensures r.next.bound == s.bound && r.next.connected == s.connected && IsClosed(r.next) == IsClosed(s)
    ensures r.next.(anc := s.anc) == s
    ensures r.next.anc.outbound == s.anc.outbound && r.next.anc.bufferSize == s.anc.bufferSize
  {
    if IsClosed(s) then RecvStep(s, queue, Failure(SocketError(SocketIsClosed)))
    else if queue == [] then RecvStep(s, queue, Failure(WouldBlock))
    else
      match OnReceive(p, s.anc, queue[0].fds)
      case Failure(e) => RecvStep(s, queue[1..], Failure(e))
      case Success(anc) => RecvStep(s.(anc := anc), queue[1..], Success(queue[0].payload))
  }

  /**
   * `close` as the source writes it: the implementation is closed first and the local address
   * is looked up afterwards. The JDK's `getLocalAddress` answers null once `isClosed()` holds,
   * so no deletion is ever attempted.
   */
  function CloseAsWritten(s: Socket): (r: (Socket, Option<string>))
    ensures IsClosed(r.0)
    ensures IsClosed(s) ==> r == (s, None)
  {
    if IsClosed(s) then (s, None)
    else
      var implDone := s.(implClosed := true);
      (implDone.(jdkClosed := true), DeletionTarget(implDone, JdkLocalAddress(implDone)))
  }

  /**
   * The file `close` tries to delete, given the local address it looked up: only for a bound
   * socket with delete-on-close set whose address is a filesystem path.
   */
  function DeletionTarget(s: Socket, addr: Option<Endpoint>): (r: Option<string>)
    ensures r.Some? <==> s.bound && s.deleteOnClose && addr.Some? && addr.value.HasFilename()
    ensures r.Some? ==> addr == Some(FsPath(r.value))
  {
    match addr
    case Some(FsPath(path)) => if s.bound && s.deleteOnClose then Some(path) else None
    case _ => None
  }

  /** `DatagramSocket.getLocalAddress` of the JDK: null on a closed socket. */
  function JdkLocalAddress(s: Socket): (r: Option<Endpoint>)
    ensures IsClosed(s) ==> r == None
    ensures !IsClosed(s) ==> r == s.local
  {
    if IsClosed(s) then None else s.local
  }

  /** The as-written close never attempts to delete the socket file. */
  lemma CloseAsWrittenNeverDeletes(s: Socket)
    ensures CloseAsWritten(s).1 == None
  {
  }

  /**
   * `close` as documented: idempotent; on the first call it closes the socket and, when the
   * socket was bound to a filesystem path with delete-on-close set, attempts to delete that
   * path (the returned event). A failed deletion is ignored, so close never fails.
   */
  function Close(s: Socket): (r: (Socket, Option<string>))
    ensures IsClosed(r.0)
    ensures IsClosed(s) ==> r == (s, None)
    ensures r.1.Some? <==> !IsClosed(s) && s.bound && s.deleteOnClose && s.local.Some? && s.local.value.HasFilename()
    ensures r.1.Some? ==> s.local == Some(FsPath(r.1.value))
    ensures r.0.bound == s.bound && r.0.connected == s.connected && r.0.local == s.local
    ensures r.0.remote == s.remote && r.0.deleteOnClose == s.deleteOnClose && r.0.anc == s.anc
  {
    if IsClosed(s) then (s, None)
    else
      (s.(implClosed := true, jdkClosed := true), DeletionTarget(s, JdkLocalAddress(s)))
  }

  /** A socket bound to a path with delete-on-close set, on which the two closes differ. */
  lemma CloseDiffersFromAsWritten()
    ensures var s := Bind(NewInstance(), Some(FsPath("/tmp/ds1")), BindOk).next;
            CloseAsWritten(s).1 == None && Close(s).1 == Some("/tmp/ds1")
  {
  }

  /** Closing twice is the same as closing once, and the second close attempts no deletion. */
  lemma CloseIdempotent(s: Socket)
    ensures Close(Close(s).0) == (Close(s).0, None)
  {
  }

  /** `getLocalSocketAddress`: null when closed or unbound. */
  function GetLocalSocketAddress(s: Socket): (r: Option<Endpoint>)
    ensures r.Some? ==> !IsClosed(s) && s.bound && r == s.local
    ensures !IsClosed(s) && s.bound ==> r == s.local
  {
    if IsClosed(s) then None
    else if !s.bound then None
    else s.local
  }

  /**
   * `getRemoteSocketAddress`: null when not connected; otherwise the peer the kernel reports
   * for the descriptor, which a closed descriptor no longer has.
   */
  function GetRemoteSocketAddress(s: Socket): (r: Option<Endpoint>)
    ensures r.Some? ==> !IsClosed(s) && s.connected && r == s.remote
    ensures !IsClosed(s) && s.connected ==> r == s.remote
  {
    if !s.connected || IsClosed(s) then None else s.remote
  }

  predicate IsDeleteOnClose(s: Socket) {
    s.deleteOnClose
  }

  /** `setDeleteOnClose`: changes only the flag. */
  function SetDeleteOnClose(s: Socket, b: bool): (r: Socket)
    ensures IsDeleteOnClose(r) == b
    ensures r.(deleteOnClose := s.deleteOnClose) == s
  {
    s.(deleteOnClose := b)
  }

  /**
   * `setOutboundFileDescriptors`: a non-empty array on an unconnected socket is refused and
   * nothing changes; a null or empty array is always passed on, clearing the staging.
   */
  function SetOutboundFileDescriptors(s: Socket, fds: Option<Batch>): (r: Step<()>)
    ensures fds.Some? && |fds.value| > 0 && !s.connected ==> r == Step(s, Failure(SocketError(NotConnected)))
    ensures r.ret.Success? <==> fds.None? || |fds.value| == 0 || s.connected
    ensures r.ret.Success? ==> r.next == s.(anc := SetOutbound(s.anc, fds))
    ensures r.ret.Success? ==> (HasOutboundFileDescriptors(r.next) <==> fds.Some? && |fds.value| > 0)
  {
    if fds.Some? && |fds.value| > 0 && !s.connected then Step(s, Failure(SocketError(NotConnected)))
    else Step(s.(anc := SetOutbound(s.anc, fds)), Success(()))
  }

  predicate HasOutboundFileDescriptors(s: Socket) {
    HasOutbound(s.anc)
  }

  /** `getReceivedFileDescriptors`, forwarded to the ancillary state. */
  function GetReceivedFileDescriptors(s: Socket): (r: (Socket, Option<Batch>))
    ensures r.0 == s.(anc := Drain(s.anc).0)
    ensures r.1.Some? ==> r.1.value == Received(s.anc) && r.1.value != []
    ensures r.1.None? <==> Received(s.anc) == []
  {
    var (anc, got) := Drain(s.anc);
    (s.(anc := anc), got)
  }

  function ClearReceivedFileDescriptors(s: Socket): (r: Socket)
    ensures Received(r.anc) == [] && r.(anc := s.anc) == s
    ensures r.anc.outbound == s.anc.outbound && r.anc.bufferSize == s.anc.bufferSize
  {
    s.(anc := Ancillary.ClearReceived(s.anc))
  }

  function GetAncillaryReceiveBufferSize(s: Socket): nat {
    s.anc.bufferSize
  }

  function SetAncillaryReceiveBufferSize(s: Socket, size: nat): (r: Socket)
    ensures GetAncillaryReceiveBufferSize(r) == size && r.(anc := s.anc) == s
    ensures r.anc.outbound == s.anc.outbound && r.anc.pending == s.anc.pending
  {
    s.(anc := SetReceiveBufferSize(s.anc, size))
  }

  function EnsureAncillaryReceiveBufferSize(s: Socket, minSize: int): (r: Socket)
    ensures GetAncillaryReceiveBufferSize(r) >= GetAncillaryReceiveBufferSize(s)
    ensures GetAncillaryReceiveBufferSize(r) >= minSize
    ensures r.(anc := s.anc) == s
    ensures r.anc.outbound == s.anc.outbound && r.anc.pending == s.anc.pending
  {
    s.(anc := EnsureReceiveBufferSize(s.anc, minSize))
  }

  /**
   * `getPeerCredentials`: refused with "Not connected" unless the socket is open and
   * connected; otherwise the implementation's answer.
   */
  function GetPeerCredentials(s: Socket, os: Result<Credentials, Error>): (r: Result<Credentials, Error>)
    ensures IsClosed(s) || !s.connected ==> r == Failure(SocketError(NotConnected))
    ensures !IsClosed(s) && s.connected ==> r == os
  {
    if IsClosed(s) || !s.connected then Failure(SocketError(NotConnected)) else os
  }

  /** `setDeleteOnClose` and `isDeleteOnClose` round-trip, and the default is true. */
  lemma DeleteOnCloseRoundTrip(s: Socket, b: bool)
    ensures IsDeleteOnClose(SetDeleteOnClose(s, b)) == b
    ensures SetDeleteOnClose(SetDeleteOnClose(s, b), s.deleteOnClose) == s
    ensures IsDeleteOnClose(NewInstance())
  {
  }

  /** A successful bind is visible through `getLocalSocketAddress` until the socket closes. */
  lemma BindThenLocalAddress(s: Socket, addr: Endpoint)
    requires !IsClosed(s) && !s.bound
    ensures GetLocalSocketAddress(Bind(s, Some(addr), BindOk).next) == Some(addr)
    ensures GetLocalSocketAddress(Close(Bind(s, Some(addr), BindOk).next).0) == None
  {
  }

  /**
   * `isClosed` over the lifecycle: a new socket is open; `close` and a refused bind close it;
   * no operation reopens a closed socket.
   */
  lemma ClosedLifecycle(s: Socket, addr: Option<Endpoint>, msg: string, bindOs: BindOutcome, payload: seq<Byte>,
                        os: OsResult, peer: Endpoint, p: Platform, queue: seq<Packet>)
    ensures !IsClosed(NewInstance())
    ensures IsClosed(Close(s).0)
    ensures !IsClosed(s) && !s.bound ==> IsClosed(Bind(s, addr, BindRefused(msg)).next)
    ensures IsClosed(s) ==> IsClosed(Bind(s, addr, bindOs).next) && IsClosed(Send(s, payload, bindOs, os).next)
    ensures IsClosed(s) ==> IsClosed(Connect(s, peer, bindOs, os).next) && IsClosed(Receive(p, s, queue).next)
  {
  }

  /**
   * `isDeleteOnClose` decides whether closing an open socket bound to a filesystem path tries
   * to delete that path.
   */
  lemma DeleteOnCloseDecidesDeletion(s: Socket, path: string)
    requires !IsClosed(s) && s.bound && s.local == Some(FsPath(path))
    ensures Close(s).1.Some? <==> IsDeleteOnClose(s)
    ensures Close(SetDeleteOnClose(s, true)).1 == Some(path)
    ensures Close(SetDeleteOnClose(s, false)).1 == None
  {
  }

  /**
   * `hasOutboundFileDescriptors` holds from staging a non-empty batch on a connected socket
   * until the next send, which carries that batch; a null array clears it.
   */
  lemma StagedUntilSent(s: Socket, fds: Batch, payload: seq<Byte>, os: OsResult)
    requires !IsClosed(s) && s.bound && s.connected && |fds| > 0
    ensures !HasOutboundFileDescriptors(NewInstance())
    ensures var staged := SetOutboundFileDescriptors(s, Some(fds)).next;
            && HasOutboundFileDescriptors(staged)
            && !HasOutboundFileDescriptors(Send(staged, payload, BindOk, os).next)
            && (os.OsOk? ==> Send(staged, payload, BindOk, os).ret == Success(Packet(payload, fds)))
            && !HasOutboundFileDescriptors(SetOutboundFileDescriptors(staged, None).next)
  {
  }

  /**
   * `getAncillaryReceiveBufferSize` reads back what was set, is 0 on a new socket, grows to the
   * larger of the two sizes under `ensureAncillaryReceiveBufferSize`, and a receive keeps it.
   */
  lemma ReceiveBufferSizeRoundTrip(s: Socket, size: nat, minSize: int, p: Platform, queue: seq<Packet>)
    ensures GetAncillaryReceiveBufferSize(SetAncillaryReceiveBufferSize(s, size)) == size
    ensures GetAncillaryReceiveBufferSize(NewInstance()) == 0
    ensures GetAncillaryReceiveBufferSize(EnsureAncillaryReceiveBufferSize(SetAncillaryReceiveBufferSize(s, size), minSize))
              == if minSize > size then minSize else size
    ensures GetAncillaryReceiveBufferSize(Receive(p, s, queue).next) == GetAncillaryReceiveBufferSize(s)
  {
  }

  /**
   * Peer credentials follow the connection: a new socket has none to give, a successful connect
   * of an open socket makes the implementation's answer available, and a close takes it away.
   */
  lemma PeerCredentialsFollowConnect(s: Socket, addr: Endpoint, bindOs: BindOutcome,
                                     os: Result<Credentials, Error>)
    requires !IsClosed(s)
    ensures GetPeerCredentials(NewInstance(), os) == Failure(SocketError(NotConnected))
    ensures var c := Connect(s, addr, bindOs, OsOk);
            c.ret.Success? ==> GetPeerCredentials(c.next, os) == os
    ensures GetPeerCredentials(Close(s).0, os) == Failure(SocketError(NotConnected))
  {
  }
}

=== FILE: io.dfy ===
/** Option and Result wrappers used throughout the model. */
module Wrappers {

  /** A value that may be absent; `None` stands for Java's `null`. */
  datatype Option<+T> = None | Some(value: T) {
    function GetOr(default: T): T {
      match this
      case Some(v) => v
      case None => default
    }
  }

  /** The outcome of an operation that may throw: a value or an exception. */
  datatype Result<+T, +E> = Success(value: T) | Failure(error: E)
}

/** Exceptions, bytes and operating-system outcomes shared by the socket and pipe models. */
module Io {

  /** An octet of payload. */
  type Byte = b: int | 0 <= b < 256

  /** The exceptions the modelled code throws or passes on. */
  datatype Error =
    | SocketError(msg: string)       // java.net.SocketException
    | UnnamedSocketError             // java.net.SocketException whose message is null
    | IOError(msg: string)           // any other java.io.IOException
    | IllegalArgument(msg: string)   // java.lang.IllegalArgumentException
    | ClosedChannel                  // java.nio.channels.ClosedChannelException (message null)
    | IndexOutOfBounds               // an array index outside the array
    | WouldBlock                     // nothing is available yet; the wait itself is not modelled
  {
    /** A `java.net.SocketException`, with or without a message. */
    predicate IsSocketException() {
      SocketError? || UnnamedSocketError?
    }

    /** A `java.io.IOException`: what a `catch (IOException e)` catches. */
    predicate IsIOException() {
      IsSocketException() || IOError? || ClosedChannel?
    }
  }

  const SocketIsClosed: string := "Socket is closed"
  const AlreadyBound: string := "already bound"
  const NotConnected: string := "Not connected"
  const CannotConnectInet: string := "Cannot connect to InetAddress"
  const NoBufferSpace: string := "No buffer space available"

  /** What an uninterpreted operating-system call reported. */
  datatype OsResult = OsOk | OsFail(error: Error)
}

=== FILE: pipe.dfy ===
/**
 * `AFUNIXPipe`: two cores, a source and a sink, created together as a linked pair. The bytes
 * written to the sink and not yet read from the source are kept in the pipe record, standing
 * for the kernel's buffer.
 */
module UnixPipe {
  import opened Wrappers
  import opened Io
  import opened Ancillary

  /** One end's core: its descriptor and whether it has been closed. */
  datatype Core = Core(fd: Fd, closed: bool)

  /** The options passed to every core read and write: `NonSocket` marks a plain OS pipe. */
  datatype PipeOptions = NoOptions | NonSocket

  datatype Pipe = Pipe(sourceCore: Core, sinkCore: Core, options: PipeOptions, buffered: seq<Byte>)

  /** What pipe initialisation reported: failure, or whether the pair is a socket pair. */
  datatype InitOutcome = InitFailed(error: Error) | InitOk(isSocket: bool)

  /**
   * The constructor: both ends start open and empty; the options flag is `NonSocket` exactly
   * when initialisation reports that the pair is not a socket pair.
   */
  function Open(sourceFd: Fd, sinkFd: Fd, init: InitOutcome): (r: Result<Pipe, Error>)
    ensures r.Failure? <==> init.InitFailed?
    ensures r.Failure? ==> r.error == init.error
    ensures r.Success? ==> (r.value.options == NonSocket <==> !init.isSocket)
    ensures r.Success? ==> !r.value.sourceCore.closed && !r.value.sinkCore.closed && r.value.buffered == []
    ensures r.Success? ==> SourceFd(r.value) == sourceFd && SinkFd(r.value) == sinkFd
  {
    match init
    case InitFailed(e) => Failure(e)
    case InitOk(isSocket) =>
      Success(Pipe(Core(sourceFd, false), Core(sinkFd, false), if isSocket then NoOptions else NonSocket, []))
  }

  /** `sourceFD` and the source channel's `getFileDescriptor`. */
  function SourceFd(p: Pipe): Fd {
    p.sourceCore.fd
  }

  /** `sinkFD` and the sink channel's `getFileDescriptor`. */
  function SinkFd(p: Pipe): Fd {
    p.sinkCore.fd
  }

  /** A destination buffer: the bytes already put into it and its `remaining()` room. */
  datatype ByteBuf = ByteBuf(content: seq<Byte>, room: nat)

  datatype SourceStep = SourceStep(pipe: Pipe, dst: ByteBuf, ret: Result<int, Error>)

  /**
   * `SourceChannel.read(ByteBuffer)`: fails on a closed source; otherwise moves as many
   * buffered bytes as fit into `dst`, returning -1 once the sink is closed and the buffer is
   * empty, and 0 when nothing is available yet.
   */
  function Read(p: Pipe, dst: ByteBuf): (r: SourceStep)
    ensures p.sourceCore.closed ==> r == SourceStep(p, dst, Failure(ClosedChannel))
    ensures r.ret.Success? && r.ret.value >= 0 ==> r.ret.value <= dst.room && r.ret.value <= |p.buffered|
    ensures r.ret.Success? && 0 <= r.ret.value <= |p.buffered| ==> r.pipe.buffered == p.buffered[r.ret.value..]
    ensures r.ret.Success? && 0 <= r.ret.value <= |p.buffered| && r.ret.value <= dst.room ==>
              r.dst == ByteBuf(dst.content + p.buffered[..r.ret.value], dst.room - r.ret.value)
    ensures r.ret == Success(-1) <==> !p.sourceCore.closed && dst.room > 0 && p.buffered == [] && p.sinkCore.closed
    ensures r.ret.Success? && r.ret.value <= 0 ==> r.pipe == p && r.dst == dst
    ensures !p.sourceCore.closed && dst.room > 0 && p.buffered != [] ==> r.ret.Success? && r.ret.value > 0
    ensures r.pipe.sourceCore == p.sourceCore && r.pipe.sinkCore == p.sinkCore && r.pipe.options == p.options
  {
    if p.sourceCore.closed then SourceStep(p, dst, Failure(ClosedChannel))
    else if dst.room == 0 then SourceStep(p, dst, Success(0))
    else if p.buffered == [] then SourceStep(p, dst, Success(if p.sinkCore.closed then -1 else 0))
    else
      var n := if dst.room < |p.buffered| then dst.room else |p.buffered|;
      SourceStep(p.(buffered := p.buffered[n..]), ByteBuf(dst.content + p.buffered[..n], dst.room - n), Success(n))
  }

  datatype ScatterStep = ScatterStep(pipe: Pipe, dsts: seq<ByteBuf>, ret: Result<int, Error>)

  /**
   * `SourceChannel.read(ByteBuffer[], int, int)`: a zero length returns 0 and touches
   * nothing; any other length reads into `dsts[offset]` alone.
   */
  function ScatterRead(p: Pipe, dsts: seq<ByteBuf>, offset: int, length: int): (r: ScatterStep)
    ensures length == 0 ==> r == ScatterStep(p, dsts, Success(0))
    ensures length != 0 && !(0 <= offset < |dsts|) ==> r == ScatterStep(p, dsts, Failure(IndexOutOfBounds))
    ensures length != 0 && 0 <= offset < |dsts| ==>
              var single := Read(p, dsts[offset]);
              r == ScatterStep(single.pipe, dsts[offset := single.dst], single.ret)
    ensures |r.dsts| == |dsts|
    ensures forall i :: 0 <= i < |dsts| && i != offset ==> r.dsts[i] == dsts[i]
  {
    if length == 0 then ScatterStep(p, dsts, Success(0))
    else if !(0 <= offset < |dsts|) then ScatterStep(p, dsts, Failure(IndexOutOfBounds))
    else
      var single := Read(p, dsts[offset]);
      ScatterStep(single.pipe, dsts[offset := single.dst], single.ret)
  }

  /** `SourceChannel.read(ByteBuffer[])`: the whole array, which comes down to its first buffer. */
  function ReadArray(p: Pipe, dsts: seq<ByteBuf>): (r: ScatterStep)
    ensures r == ScatterRead(p, dsts, 0, |dsts|)
    ensures dsts == [] ==> r == ScatterStep(p, dsts, Success(0))
    ensures dsts != [] ==> r.ret == Read(p, dsts[0]).ret && r.dsts == [Read(p, dsts[0]).dst] + dsts[1..]
  {
    ScatterRead(p, dsts, 0, |dsts|)
  }

  datatype WriteStep = WriteStep(pipe: Pipe, rest: seq<Byte>, ret: Result<int, Error>)

  /**
   * `SinkChannel.write(ByteBuffer)`: fails on a closed sink; otherwise appends the buffer's
   * remaining bytes to what the source can read.
   */
  function Write(p: Pipe, src: seq<Byte>): (r: WriteStep)
    ensures p.sinkCore.closed ==> r == WriteStep(p, src, Failure(ClosedChannel))
    ensures !p.sinkCore.closed ==> r.ret == Success(|src|) && r.rest == [] && r.pipe.buffered == p.buffered + src
    ensures r.pipe.sourceCore == p.sourceCore && r.pipe.sinkCore == p.sinkCore && r.pipe.options == p.options
  {
    if p.sinkCore.closed then WriteStep(p, src, Failure(ClosedChannel))
    else WriteStep(p.(buffered := p.buffered + src), [], Success(|src|))
  }

  datatype GatherStep = GatherStep(pipe: Pipe, srcs: seq<seq<Byte>>, ret: Result<int, Error>)

  /**
   * `SinkChannel.write(ByteBuffer[], int, int)`: a zero length returns 0 and touches nothing;
   * any other length writes `srcs[offset]` alone.
   */
  function GatherWrite(p: Pipe, srcs: seq<seq<Byte>>, offset: int, length: int): (r: GatherStep)
    ensures length == 0 ==> r == GatherStep(p, srcs, Success(0))
    ensures length != 0 && !(0 <= offset < |srcs|) ==> r == GatherStep(p, srcs, Failure(IndexOutOfBounds))
    ensures length != 0 && 0 <= offset < |srcs| ==>
              var single := Write(p, srcs[offset]);
              r == GatherStep(single.pipe, srcs[offset := single.rest], single.ret)
    ensures |r.srcs| == |srcs|
    ensures forall i :: 0 <= i < |srcs| && i != offset ==> r.srcs[i] == srcs[i]
  {
    if length == 0 then GatherStep(p, srcs, Success(0))
    else if !(0 <= offset < |srcs|) then GatherStep(p, srcs, Failure(IndexOutOfBounds))
    else
      var single := Write(p, srcs[offset]);
      GatherStep(single.pipe, srcs[offset := single.rest], single.ret)
  }

  /** `SinkChannel.write(ByteBuffer[])`: the whole array, which comes down to its first buffer. */
  function WriteArray(p: Pipe, srcs: seq<seq<Byte>>): (r: GatherStep)
    ensures r == GatherWrite(p, srcs, 0, |srcs|)
    ensures srcs == [] ==> r == GatherStep(p, srcs, Success(0))
    ensures srcs != [] ==> r.ret == Write(p, srcs[0]).ret && r.pipe == Write(p, srcs[0]).pipe
  {
    GatherWrite(p, srcs, 0, |srcs|)
  }

  /**
   * Closing a source channel: the first close closes `sourceCore` and reports what closing
   * its descriptor reported; later closes do nothing. The sink and the buffered bytes are
   * untouched.
   */
  function CloseSource(p: Pipe, os: OsResult): (r: (Pipe, Result<(), Error>))
    ensures r.0.sourceCore == Core(p.sourceCore.fd, true)
    ensures r.0.sinkCore == p.sinkCore && r.0.buffered == p.buffered && r.0.options == p.options
    ensures r.1.Failure? <==> !p.sourceCore.closed && os.OsFail?
    ensures r.1.Failure? ==> r.1.error == os.error
  {
    if p.sourceCore.closed then (p, Success(()))
    else (p.(sourceCore := p.sourceCore.(closed := true)), CloseOutcome(os))
  }

  /** Closing a sink channel: as `CloseSource`, for `sinkCore`. */
  function CloseSink(p: Pipe, os: OsResult): (r: (Pipe, Result<(), Error>))
    ensures r.0.sinkCore == Core(p.sinkCore.fd, true)
    ensures r.0.sourceCore == p.sourceCore && r.0.buffered == p.buffered && r.0.options == p.options
    ensures r.1.Failure? <==> !p.sinkCore.closed && os.OsFail?
    ensures r.1.Failure? ==> r.1.error == os.error
  {
    if p.sinkCore.closed then (p, Success(()))
    else (p.(sinkCore := p.sinkCore.(closed := true)), CloseOutcome(os))
  }

  function CloseOutcome(os: OsResult): (r: Result<(), Error>)
    ensures r.Failure? <==> os.OsFail?
    ensures r.Failure? ==> r.error == os.error
  {
    match os
    case OsOk => Success(())
    case OsFail(e) => Failure(e)
  }

  /**
   * `AFUNIXPipe.close`: closes the source, then the sink in a `finally`, so the sink is closed
   * even when closing the source throws. An exception from the sink replaces one from the
   * source.
   */
  function Close(p: Pipe, sourceOs: OsResult, sinkOs: OsResult): (r: (Pipe, Result<(), Error>))
    ensures r.0.sourceCore.closed && r.0.sinkCore.closed
    ensures SourceFd(r.0) == SourceFd(p) && SinkFd(r.0) == SinkFd(p) && r.0.buffered == p.buffered
    ensures !p.sinkCore.closed && sinkOs.OsFail? ==> r.1 == Failure(sinkOs.error)
    ensures (p.sinkCore.closed || sinkOs.OsOk?) && !p.sourceCore.closed && sourceOs.OsFail? ==>
              r.1 == Failure(sourceOs.error)
    ensures r.1.Success? <==> (p.sourceCore.closed || sourceOs.OsOk?) && (p.sinkCore.closed || sinkOs.OsOk?)
  {
    var (afterSource, sourceRet) := CloseSource(p, sourceOs);
    var (afterSink, sinkRet) := CloseSink(afterSource, sinkOs);
    (afterSink, if sinkRet.Failure? then sinkRet else sourceRet)
  }

  /**
   * Closing twice is closing once: the second close finds both channels closed, changes
   * nothing and reports success whatever the descriptors would report.
   */
  lemma CloseIdempotent(p: Pipe, sourceOs: OsResult, sinkOs: OsResult, sourceOs2: OsResult, sinkOs2: OsResult)
    ensures var first := Close(p, sourceOs, sinkOs).0;
            Close(first, sourceOs2, sinkOs2) == (first, Success(()))
  {
  }

  /**
   * Closing the source channel closes only the source core: the sink core, its descriptor and
   * the bytes in the pipe are untouched, and so is the source's descriptor.
   */
  lemma SourceCloseKeepsSinkOpen(p: Pipe, os: OsResult)
    ensures CloseSource(p, os).0.sinkCore == p.sinkCore
    ensures SinkFd(CloseSource(p, os).0) == SinkFd(p) && SourceFd(CloseSource(p, os).0) == SourceFd(p)
    ensures CloseSource(p, os).0.buffered == p.buffered
  {
  }

  /**
   * `sourceFD`, `sinkFD` and the channels' `getFileDescriptor`: each end keeps the descriptor
   * it was opened with through reads, writes and closes.
   */
  lemma DescriptorsStable(p: Pipe, dst: ByteBuf, src: seq<Byte>, os1: OsResult, os2: OsResult)
    ensures SourceFd(Read(p, dst).pipe) == SourceFd(p) && SinkFd(Read(p, dst).pipe) == SinkFd(p)
    ensures SourceFd(Write(p, src).pipe) == SourceFd(p) && SinkFd(Write(p, src).pipe) == SinkFd(p)
    ensures SourceFd(CloseSink(p, os1).0) == SourceFd(p) && SinkFd(CloseSink(p, os1).0) == SinkFd(p)
    ensures SourceFd(Close(p, os1, os2).0) == SourceFd(p) && SinkFd(Close(p, os1, os2).0) == SinkFd(p)
    ensures forall sourceFd: Fd, sinkFd: Fd, isSocket: bool ::
              var started := Open(sourceFd, sinkFd, InitOk(isSocket)).value;
              SourceFd(started) == sourceFd && SinkFd(started) == sinkFd
  {
  }

  /** What is written to an open pipe comes out of the source unchanged and in order. */
  lemma WriteThenRead(p: Pipe, src: seq<Byte>, dst: ByteBuf)
    requires !p.sourceCore.closed && !p.sinkCore.closed
    requires p.buffered == [] && |src| > 0 && dst.room >= |src|
    ensures var w := Write(p, src);
            var rd := Read(w.pipe, dst);
            rd.ret == Success(|src|) && rd.dst.content == dst.content + src && rd.pipe.buffered == []
  {
    var w := Write(p, src);
    assert w.pipe.buffered == src;
    assert src[..|src|] == src;
  }

  /**
   * Closing the sink loses none of the bytes already written: the source still reads them,
   * and only then sees the end of the stream.
   */
  lemma SinkCloseKeepsBufferedBytes(p: Pipe, os: OsResult, dst: ByteBuf)
    requires !p.sourceCore.closed && p.buffered != [] && dst.room >= |p.buffered|
    ensures var closed := CloseSink(p, os).0;
            var first := Read(closed, dst);
            && first.ret == Success(|p.buffered|) && first.dst.content == dst.content + p.buffered
            && Read(first.pipe, first.dst).ret == (if first.dst.room > 0 then Success(-1) else Success(0))
  {
    var closed := CloseSink(p, os).0;
    assert closed.buffered[..|p.buffered|] == p.buffered;
  }
}

=== FILE: scenarios.dfy ===
/**
 * The descriptor-passing scenarios of the repository's FileDescriptorsTest, replayed as traces
 * over the stream link and the datagram socket. A scenario's requirements on the platform are
 * what the test itself relies on (a 1024-byte receive buffer holds two descriptors).
 *
 * Each trace is proved by naming the link after every step, proving the step equations in
 * small groups, and assembling the run with `Replay`.
 */
module Scenarios {
  import opened Wrappers
  import opened Io
  import opened Ancillary
  import opened StreamLink
  import DatagramSocket

  const Hello: seq<Byte> := [72, 69, 76, 76, 79]
  const StdIn: Fd := Fd(0)
  const StdErr: Fd := Fd(2)
  const Pair: Batch := [StdIn, StdErr]
  /** The single byte 123 the tests write. */
  const OneByte: seq<Byte> := [123]
  const NoFds: Batch := []

  // ---------------------------------------------------------------------------------------
  // testSendRecvFileDescriptors

  /**
   * Stage stdin and stderr, check the staging, write "HELLO", close the output, check the
   * staging is consumed; on the other side size the buffer, drain (nothing yet), read, drain
   * twice, read the end of the stream, drain once more.
   */
  const SendRecvOps: seq<Op> := [
    Stage(Some(Pair)), QueryOutbound, Write(Hello, OsOk), CloseOutput, QueryOutbound,
    SetBufferSize(1024), DrainReceived, Read(64), DrainReceived, DrainReceived, Read(64), DrainReceived
  ]

  /** What the test asserts after each of `SendRecvOps`. */
  const SendRecvObs: seq<Obs> := [
    Done, Flag(true), Count(5), Done, Flag(false),
    Done, Fds(None), Got(Hello), Fds(Some(Pair)), Fds(None), EndOfStream, Fds(None)
  ]

  const StagedPair: Link := Connected().(writer := Support(Pair, None, 0))
  const HelloInFlight: Link := Connected().(wire := [Segment(Hello, Pair)], sent := multiset(Pair))
  const HelloClosed: Link := HelloInFlight.(eof := true)
  const HelloSized: Link := HelloClosed.(reader := Support([], None, 1024))
  const PairPending: Link := HelloSized.(reader := Support([], Some(Pair), 1024), wire := [])
  const PairHandedOut: Link := PairPending.(reader := Support([], None, 1024), handedOut := multiset(Pair))

  lemma SendRecvWriterSteps(p: Platform)
    ensures Step(p, Connected(), SendRecvOps[0]) == (StagedPair, SendRecvObs[0])
    ensures Step(p, StagedPair, SendRecvOps[1]) == (StagedPair, SendRecvObs[1])
    ensures Step(p, StagedPair, SendRecvOps[2]) == (HelloInFlight, SendRecvObs[2])
    ensures Step(p, HelloInFlight, SendRecvOps[3]) == (HelloClosed, SendRecvObs[3])
    ensures Step(p, HelloClosed, SendRecvOps[4]) == (HelloClosed, SendRecvObs[4])
    ensures Step(p, HelloClosed, SendRecvOps[5]) == (HelloSized, SendRecvObs[5])
  {
    assert [] + [Segment(Hello, Pair)] == [Segment(Hello, Pair)];
    assert multiset{} + multiset(Pair) == multiset(Pair);
  }

  lemma SendRecvReaderSteps(p: Platform)
    ensures Step(p, HelloSized, SendRecvOps[6]) == (HelloSized, SendRecvObs[6])
    ensures Step(p, PairPending, SendRecvOps[8]) == (PairHandedOut, SendRecvObs[8])
    ensures Step(p, PairHandedOut, SendRecvOps[9]) == (PairHandedOut, SendRecvObs[9])
    ensures Step(p, PairHandedOut, SendRecvOps[10]) == (PairHandedOut, SendRecvObs[10])
    ensures Step(p, PairHandedOut, SendRecvOps[11]) == (PairHandedOut, SendRecvObs[11])
  {
    assert multiset{} + multiset(NoFds) == HelloSized.handedOut;
    assert PairHandedOut.handedOut + multiset(NoFds) == PairHandedOut.handedOut;
    assert PairHandedOut.discarded + multiset(NoFds) == PairHandedOut.discarded;
    assert multiset{} + multiset(Pair) == multiset(Pair);
  }

  /** The read that takes "HELLO" off the wire and surfaces the pair. */
  lemma SendRecvRead(p: Platform)
    requires p.capacity(1024) >= 2
    ensures Step(p, HelloSized, SendRecvOps[7]) == (PairPending, SendRecvObs[7])
  {
    assert Hello[..5] == Hello && Pair[2..] == [] && [] + Pair == Pair;
    assert multiset{} + multiset(NoFds) == HelloSized.discarded;
    assert ReadOnce(p, HelloSized.reader, HelloSized.wire, true, 64) == ReadStep(PairPending.reader, [], Success(5), Hello, []);
  }

  /**
   * testSendRecvFileDescriptors: two staged descriptors travel with "HELLO"; the reader sees
   * none before reading, both after reading, none on a second drain, and then end of stream
   * with nothing more.
   */
  lemma SendRecvFileDescriptors(p: Platform)
    requires p.capacity(1024) >= 2
    ensures Run(p, Connected(), SendRecvOps).1 == SendRecvObs
  {
    SendRecvWriterSteps(p);
    SendRecvReaderSteps(p);
    SendRecvRead(p);
    Replay(p, [Connected(), StagedPair, StagedPair, HelloInFlight, HelloClosed, HelloClosed, HelloSized,
               HelloSized, PairPending, PairHandedOut, PairHandedOut, PairHandedOut, PairHandedOut],
           SendRecvOps, SendRecvObs);
  }

  // ---------------------------------------------------------------------------------------
  // testNullFileDescriptorArray and testEmptyFileDescriptorArray

  function NullOrEmptyOps(fds: Option<Batch>): seq<Op> {
    [Stage(fds), QueryOutbound, Write(OneByte, OsOk), CloseOutput, SetBufferSize(1024), Read(1), DrainReceived]
  }

  const NullOrEmptyObs: seq<Obs> := [Done, Flag(false), Count(1), Done, Done, Got(OneByte), Fds(None)]

  const ByteInFlight: Link := Connected().(wire := [Segment(OneByte, [])])
  const ByteSized: Link := ByteInFlight.(eof := true, reader := Support([], None, 1024))
  const ByteRead: Link := ByteSized.(wire := [])

  lemma NullOrEmptyWriterSteps(p: Platform, fds: Option<Batch>)
    requires fds == None || fds == Some([])
    ensures Step(p, Connected(), Stage(fds)) == (Connected(), Done)
    ensures Step(p, Connected(), QueryOutbound) == (Connected(), Flag(false))
    ensures Step(p, Connected(), Write(OneByte, OsOk)) == (ByteInFlight, Count(1))
    ensures Step(p, ByteInFlight, CloseOutput) == (ByteInFlight.(eof := true), Done)
    ensures Step(p, ByteInFlight.(eof := true), SetBufferSize(1024)) == (ByteSized, Done)
  {
    assert [] + [Segment(OneByte, [])] == [Segment(OneByte, [])];
    assert multiset{} + multiset(NoFds) == Connected().sent;
  }

  lemma NullOrEmptyReaderSteps(p: Platform)
    ensures Step(p, ByteSized, Read(1)) == (ByteRead, Got(OneByte))
    ensures Step(p, ByteRead, DrainReceived) == (ByteRead, Fds(None))
  {
    assert multiset{} + multiset(NoFds) == Connected().sent;
    assert OneByte[..1] == OneByte;
    assert ReadOnce(p, ByteSized.reader, ByteSized.wire, true, 1) == ReadStep(ByteSized.reader, [], Success(1), OneByte, []);
  }

  /**
   * testNullFileDescriptorArray and testEmptyFileDescriptorArray: a null or empty array stages
   * nothing, so the byte arrives without descriptors.
   */
  lemma NullOrEmptyDescriptorArray(p: Platform, fds: Option<Batch>)
    requires fds == None || fds == Some([])
    ensures Run(p, Connected(), NullOrEmptyOps(fds)).1 == NullOrEmptyObs
  {
    NullOrEmptyWriterSteps(p, fds);
    NullOrEmptyReaderSteps(p);
    Replay(p, [Connected(), Connected(), Connected(), ByteInFlight, ByteInFlight.(eof := true), ByteSized, ByteRead, ByteRead],
           NullOrEmptyOps(fds), NullOrEmptyObs);
  }

  // ---------------------------------------------------------------------------------------
  // testBadFileDescriptor

  function BadFdOps(e: Error): seq<Op> {
    [Stage(Some([Fd(-1)])), Write(OneByte, OsFail(e)), QueryOutbound, CloseOutput, Read(1), DrainReceived]
  }

  function BadFdObs(e: Error): seq<Obs> {
    [Done, Fail(e), Flag(false), Done, EndOfStream, Fds(None)]
  }

  const StagedBad: Link := Connected().(writer := Support([Fd(-1)], None, 0))
  const StartClosed: Link := Connected().(eof := true)

  lemma BadFdSteps(p: Platform, e: Error)
    ensures Step(p, Connected(), Stage(Some([Fd(-1)]))) == (StagedBad, Done)
    ensures Step(p, StagedBad, Write(OneByte, OsFail(e))) == (Connected(), Fail(e))
    ensures Step(p, Connected(), QueryOutbound) == (Connected(), Flag(false))
    ensures Step(p, Connected(), CloseOutput) == (StartClosed, Done)
    ensures Step(p, StartClosed, Read(1)) == (StartClosed, EndOfStream)
    ensures Step(p, StartClosed, DrainReceived) == (StartClosed, Fds(None))
  {
    assert multiset{} + multiset(NoFds) == Connected().discarded;
  }

  /**
   * testBadFileDescriptor: the kernel refuses the send; the write throws, the staging is
   * consumed all the same, and the reader sees only the end of the stream.
   */
  lemma BadFileDescriptor(p: Platform, e: Error)
    ensures Run(p, Connected(), BadFdOps(e)).1 == BadFdObs(e)
  {
    BadFdSteps(p, e);
    Replay(p, [Connected(), StagedBad, Connected(), Connected(), StartClosed, StartClosed, StartClosed], BadFdOps(e), BadFdObs(e));
  }

  // ---------------------------------------------------------------------------------------
  // testNoAncillaryReceiveBuffer

  const NoBufferOps: seq<Op> := [Stage(Some(Pair)), Write(OneByte, OsOk), Read(1), DrainReceived, QueryBufferSize]

  /** The read throws exactly on a platform that reports truncation; otherwise it returns the byte. */
  function NoBufferObs(p: Platform): seq<Obs> {
    [Done, Count(1), if p.raisesOnTruncation then Fail(SocketError(NoBufferSpace)) else Got(OneByte),
     Fds(None), Count(0)]
  }

  const ByteWithPair: Link := Connected().(wire := [Segment(OneByte, Pair)], sent := multiset(Pair))
  /** Either way the kernel discards both descriptors. */
  const PairDiscarded: Link := ByteWithPair.(wire := [], discarded := multiset(Pair))

  lemma NoBufferSteps(p: Platform)
    requires ValidPlatform(p)
    ensures Step(p, Connected(), Stage(Some(Pair))) == (StagedPair, Done)
    ensures Step(p, StagedPair, Write(OneByte, OsOk)) == (ByteWithPair, Count(1))
    ensures Step(p, PairDiscarded, DrainReceived) == (PairDiscarded, Fds(None))
    ensures Step(p, PairDiscarded, QueryBufferSize) == (PairDiscarded, Count(0))
  {
    assert [] + [Segment(OneByte, Pair)] == [Segment(OneByte, Pair)];
    assert multiset{} + multiset(Pair) == multiset(Pair);
    assert PairDiscarded.handedOut + multiset(NoFds) == PairDiscarded.handedOut;
  }

  /** Without a buffer nothing fits, so the kernel discards the pair whether or not the read fails. */
  lemma NoBufferRead(p: Platform)
    requires ValidPlatform(p)
    ensures Step(p, ByteWithPair, Read(1)) == (PairDiscarded, NoBufferObs(p)[2])
  {
    assert OneByte[..1] == OneByte && Pair[..0] == [] && Pair[0..] == Pair;
    var ret := if p.raisesOnTruncation then Failure(SocketError(NoBufferSpace)) else Success(1);
    assert ReadOnce(p, Fresh(), ByteWithPair.wire, false, 1) == ReadStep(Fresh(), [], ret, OneByte, Pair);
    assert multiset{} + multiset(Pair) == multiset(Pair);
  }

  /**
   * testNoAncillaryReceiveBuffer: without a receive buffer the read either returns the byte or
   * throws (which one depends on the platform), no descriptor surfaces, and the buffer size
   * reads back as 0.
   */
  lemma NoAncillaryReceiveBuffer(p: Platform)
    requires ValidPlatform(p)
    ensures Run(p, Connected(), NoBufferOps).1 == NoBufferObs(p)
    ensures var obs := Run(p, Connected(), NoBufferOps).1;
            && (obs[2] == Got(OneByte) || obs[2].Fail?)
            && obs[3] == Fds(None)
            && obs[4] == Count(0)
  {
    NoBufferSteps(p);
    NoBufferRead(p);
    Replay(p, [Connected(), StagedPair, ByteWithPair, PairDiscarded, PairDiscarded, PairDiscarded], NoBufferOps, NoBufferObs(p));
  }

  // ---------------------------------------------------------------------------------------
  // testAncillaryReceiveBufferTooSmall

  const TooSmallOps: seq<Op> := [
    Stage(Some(Pair)), QueryOutbound, Write(OneByte, OsOk), QueryOutbound, SetBufferSize(13), Read(1), DrainReceived, DrainReceived
  ]

  const ByteWithPairSized: Link := ByteWithPair.(reader := Support([], None, 13))

  lemma TooSmallWriterSteps(p: Platform)
    ensures Step(p, Connected(), Stage(Some(Pair))) == (StagedPair, Done)
    ensures Step(p, StagedPair, QueryOutbound) == (StagedPair, Flag(true))
    ensures Step(p, StagedPair, Write(OneByte, OsOk)) == (ByteWithPair, Count(1))
    ensures Step(p, ByteWithPair, QueryOutbound) == (ByteWithPair, Flag(false))
    ensures Step(p, ByteWithPair, SetBufferSize(13)) == (ByteWithPairSized, Done)
  {
    assert [] + [Segment(OneByte, Pair)] == [Segment(OneByte, Pair)];
    assert multiset{} + multiset(Pair) == multiset(Pair);
  }

  /**
   * The read through the 13-byte buffer: it fails exactly when the pair does not fit and the
   * platform reports truncation; otherwise the leading descriptors that fit surface.
   */
  lemma TooSmallRead(p: Platform)
    ensures Step(p, ByteWithPairSized, Read(1)).1.Fail? <==> TooSmallFails(p)
    ensures TooSmallFails(p) ==> Step(p, ByteWithPairSized, Read(1)).1 == Fail(SocketError(NoBufferSpace))
    ensures TooSmallFails(p) ==> Received(Step(p, ByteWithPairSized, Read(1)).0.reader) == []
    ensures !TooSmallFails(p) ==> Step(p, ByteWithPairSized, Read(1)).1 == Got(OneByte)
    ensures !TooSmallFails(p) ==> Received(Step(p, ByteWithPairSized, Read(1)).0.reader) == TooSmallKept(p)
  {
    var st := ReadOnce(p, ByteWithPairSized.reader, ByteWithPairSized.wire, false, 1);
    assert OneByte[..1] == OneByte && |st.consumed| == 1;
    assert [] + Surfaced(p, ByteWithPairSized.reader, Pair) == Surfaced(p, ByteWithPairSized.reader, Pair);
  }

  /** Whether the read through the 13-byte buffer fails: the pair does not fit and the platform says so. */
  predicate TooSmallFails(p: Platform) {
    p.capacity(13) < 2 && p.raisesOnTruncation
  }

  /** The descriptors the 13-byte buffer lets through. */
  function TooSmallKept(p: Platform): Batch {
    Surfaced(p, ByteWithPairSized.reader, Pair)
  }

  /** The observations of `TooSmallOps`; the last three depend on the platform. */
  function TooSmallObs(p: Platform): seq<Obs> {
    [Done, Flag(true), Count(1), Flag(false), Done,
     if TooSmallFails(p) then Fail(SocketError(NoBufferSpace)) else Got(OneByte),
     if TooSmallFails(p) || TooSmallKept(p) == [] then Fds(None) else Fds(Some(TooSmallKept(p))),
     Fds(None)]
  }

  /** The read and the two drains after it. */
  lemma TooSmallTail(p: Platform)
    ensures Run(p, ByteWithPairSized, TooSmallOps[5..]).1 == TooSmallObs(p)[5..]
  {
    TooSmallRead(p);
    var read := Step(p, ByteWithPairSized, Read(1));
    var first := Step(p, read.0, DrainReceived);
    var second := Step(p, first.0, DrainReceived);
    assert read.1 == TooSmallObs(p)[5];
    assert first.1 == TooSmallObs(p)[6];
    assert second.1 == TooSmallObs(p)[7];
    Replay(p, [ByteWithPairSized, read.0, first.0, second.0], TooSmallOps[5..], TooSmallObs(p)[5..]);
  }

  /** The writer's steps and the buffer sizing before the read. */
  lemma TooSmallHead(p: Platform)
    ensures Run(p, Connected(), TooSmallOps[..5]) == (ByteWithPairSized, TooSmallObs(p)[..5])
  {
    TooSmallWriterSteps(p);
    Replay(p, [Connected(), StagedPair, StagedPair, ByteWithPair, ByteWithPair, ByteWithPairSized],
           TooSmallOps[..5], TooSmallObs(p)[..5]);
  }

  lemma TooSmallRun(p: Platform)
    ensures Run(p, Connected(), TooSmallOps).1 == TooSmallObs(p)
  {
    TooSmallHead(p);
    TooSmallTail(p);
    RunConcat(p, Connected(), TooSmallOps[..5], TooSmallOps[5..]);
    assert TooSmallOps[..5] + TooSmallOps[5..] == TooSmallOps;
    assert TooSmallObs(p)[..5] + TooSmallObs(p)[5..] == TooSmallObs(p);
  }

  /**
   * testAncillaryReceiveBufferTooSmall: with a 13-byte buffer the read throws, or it returns
   * the byte and the drain yields one or both descriptors, in order; either way the next
   * drain yields none. The test fails on a platform that neither throws nor fits one
   * descriptor, which the precondition excludes.
   */
  lemma AncillaryReceiveBufferTooSmall(p: Platform)
    requires p.raisesOnTruncation || p.capacity(13) >= 1
    ensures var obs := Run(p, Connected(), TooSmallOps).1;
            && obs[1] == Flag(true) && obs[3] == Flag(false)
            && (obs[5].Fail? ==> obs[6] == Fds(None))
            && (!obs[5].Fail? ==>
                  && obs[5] == Got(OneByte) && obs[6].Fds? && obs[6].fds.Some?
                  && 1 <= |obs[6].fds.value| <= 2 && obs[6].fds.value <= Pair)
            && obs[7] == Fds(None)
  {
    TooSmallRun(p);
  }

  // ---------------------------------------------------------------------------------------
  // testFileInputStream

  function FileOps(file: Fd): seq<Op> {
    [Stage(Some([file])), Write(Hello, OsOk), CloseOutput, SetBufferSize(1024), Read(64), DrainReceived]
  }

  function FileObs(file: Fd): seq<Obs> {
    [Done, Count(5), Done, Done, Got(Hello), Fds(Some([file]))]
  }

  /** The link after each step of `FileOps(file)`. */
  function FileLinks(file: Fd): seq<Link> {
    var inFlight := Connected().(wire := [Segment(Hello, [file])], sent := multiset{file});
    var sized := inFlight.(eof := true, reader := Support([], None, 1024));
    var pending := sized.(wire := [], reader := Support([], Some([file]), 1024));
    [Connected(), Connected().(writer := Support([file], None, 0)), inFlight, inFlight.(eof := true), sized, pending,
     pending.(reader := Support([], None, 1024), handedOut := multiset{file})]
  }

  lemma FileWriterSteps(p: Platform, file: Fd)
    ensures var links := FileLinks(file);
            forall i :: 0 <= i < 4 ==> Step(p, links[i], FileOps(file)[i]) == (links[i + 1], FileObs(file)[i])
  {
    assert [] + [Segment(Hello, [file])] == [Segment(Hello, [file])];
    assert multiset{} + multiset([file]) == multiset{file};
  }

  lemma FileRead(p: Platform, file: Fd)
    requires p.capacity(1024) >= 1
    ensures Step(p, FileLinks(file)[4], Read(64)) == (FileLinks(file)[5], Got(Hello))
  {
    var links := FileLinks(file);
    assert multiset{} + multiset(NoFds) == Connected().discarded;
    assert Hello[..5] == Hello && [file][1..] == [] && [] + [file] == [file];
    assert ReadOnce(p, links[4].reader, links[4].wire, true, 64) == ReadStep(links[5].reader, [], Success(5), Hello, []);
  }

  lemma FileDrain(p: Platform, file: Fd)
    ensures Step(p, FileLinks(file)[5], DrainReceived) == (FileLinks(file)[6], Fds(Some([file])))
  {
    assert multiset{} + multiset([file]) == multiset{file};
  }

  /**
   * testFileInputStream: one descriptor travels with "HELLO" and the drain after the read
   * yields exactly that descriptor.
   */
  lemma FileInputStreamDescriptor(p: Platform, file: Fd)
    requires p.capacity(1024) >= 1
    ensures Run(p, Connected(), FileOps(file)).1 == FileObs(file)
  {
    FileWriterSteps(p, file);
    FileRead(p, file);
    FileDrain(p, file);
    Replay(p, FileLinks(file), FileOps(file), FileObs(file));
  }

  // ---------------------------------------------------------------------------------------
  // testDatagramSocket

  /** A new socket with a 1024-byte receive buffer, bound to `own` and connected to `peer`. */
  function ConnectedPeer(own: string, peer: string): (s: DatagramSocket.Socket)
    ensures !DatagramSocket.IsClosed(s) && s.connected && s.bound
    ensures s.anc == Support([], None, 1024)
    ensures DatagramSocket.GetLocalSocketAddress(s) == Some(DatagramSocket.FsPath(own))
    ensures DatagramSocket.GetRemoteSocketAddress(s) == Some(DatagramSocket.FsPath(peer))
  {
    var s := DatagramSocket.SetAncillaryReceiveBufferSize(DatagramSocket.NewInstance(), 1024);
    var bound := DatagramSocket.Bind(s, Some(DatagramSocket.FsPath(own)), DatagramSocket.BindOk).next;
    DatagramSocket.Connect(bound, DatagramSocket.FsPath(peer), DatagramSocket.BindOk, OsOk).next
  }

  /**
   * testDatagramSocket: two sockets bound to paths and connected to each other; the staged
   * descriptor is consumed by `send` and surfaces, alone, after the peer's `receive`.
   */
  lemma DatagramSocketDescriptor(p: Platform, path1: string, path2: string, payload: seq<Byte>, file: Fd)
    requires p.capacity(1024) >= 1
    ensures
      var staged := DatagramSocket.SetOutboundFileDescriptors(ConnectedPeer(path1, path2), Some([file]));
      var sent := DatagramSocket.Send(staged.next, payload, DatagramSocket.BindOk, OsOk);
      var got := DatagramSocket.Receive(p, ConnectedPeer(path2, path1), [sent.ret.value]);
      && staged.ret.Success? && DatagramSocket.HasOutboundFileDescriptors(staged.next)
      && sent.ret == Success(DatagramSocket.Packet(payload, [file]))
      && !DatagramSocket.HasOutboundFileDescriptors(sent.next)
      && got.ret == Success(payload) && got.queue == []
      && DatagramSocket.GetReceivedFileDescriptors(got.next).1 == Some([file])
  {
    var ds1 := ConnectedPeer(path1, path2);
    var ds2 := ConnectedPeer(path2, path1);
    var staged := DatagramSocket.SetOutboundFileDescriptors(ds1, Some([file]));
    assert staged.next.anc.outbound == [file];
    var sent := DatagramSocket.Send(staged.next, payload, DatagramSocket.BindOk, OsOk);
    assert [] + [file] == [file];
  }

  // ---------------------------------------------------------------------------------------

  /**
   * A peek followed by a receive on a datagram socket returns the same payload twice and, with
   * a drain after each, the same descriptor batch twice (none for a packet without
   * descriptors); only the receive dequeues.
   */
  lemma PeekThenReceive(p: Platform, s: DatagramSocket.Socket, pkt: DatagramSocket.Packet, queue: seq<DatagramSocket.Packet>)
    requires !DatagramSocket.IsClosed(s) && Received(s.anc) == []
    requires |pkt.fds| <= p.capacity(s.anc.bufferSize)
    ensures
      var peeked := DatagramSocket.Peek(p, s, [pkt] + queue);
      var first := DatagramSocket.GetReceivedFileDescriptors(peeked.next);
      var got := DatagramSocket.Receive(p, first.0, [pkt] + queue);
      var second := DatagramSocket.GetReceivedFileDescriptors(got.next);
      && peeked.ret == Success(pkt.payload) && got.ret == Success(pkt.payload)
      && first.1 == (if pkt.fds == [] then None else Some(pkt.fds))
      && second.1 == first.1
      && got.queue == queue
  {
    assert ([pkt] + queue)[1..] == queue;
    assert [] + pkt.fds == pkt.fds;
  }
}

=== FILE: stream_link.dfy ===
/**
 * A connected pair of stream sockets, reduced to what the ancillary-data contract needs: the
 * writer's staging, the bytes and descriptor batches in flight, and the reader's pending batch.
 * A write attaches the staged batch to its first byte; the batch surfaces with the first read
 * that observes any byte of that write.
 */
module StreamLink {
  import opened Wrappers
  import opened Io
  import opened Ancillary

  /** The bytes of one write, together with the descriptors sent along with them. */
  datatype Segment = Segment(data: seq<Byte>, fds: Batch)

  /** The bytes in flight, in order. */
  function InFlightBytes(wire: seq<Segment>): seq<Byte> {
    if wire == [] then [] else wire[0].data + InFlightBytes(wire[1..])
  }

  /** The descriptors in flight, in order. */
  function InFlightFds(wire: seq<Segment>): Batch {
    if wire == [] then [] else wire[0].fds + InFlightFds(wire[1..])
  }

  lemma {:induction false} InFlightAppend(wire: seq<Segment>, seg: Segment)
    ensures InFlightFds(wire + [seg]) == InFlightFds(wire) + seg.fds
    ensures InFlightBytes(wire + [seg]) == InFlightBytes(wire) + seg.data
  {
    if wire == [] {
      assert wire + [seg] == [seg];
    } else {
      assert (wire + [seg])[1..] == wire[1..] + [seg];
      InFlightAppend(wire[1..], seg);
    }
  }

  /**
   * One read on the receiving side: `consumed` is what the kernel removed from the stream,
   * `dropped` the descriptors of the head write that the receive buffer did not let through.
   */
  datatype ReadStep = ReadStep(reader: Support, wire: seq<Segment>, ret: Result<int, Error>,
                               consumed: seq<Byte>, dropped: Batch)

  /**
   * `InputStream.read` into a buffer of `limit` bytes. A read never spans two writes; it
   * returns -1 once the writer has closed its side and everything was read, and reports
   * `WouldBlock` when nothing is in flight yet.
   */
  function ReadOnce(p: Platform, reader: Support, wire: seq<Segment>, eof: bool, limit: nat): (r: ReadStep)
    ensures InFlightBytes(wire) == r.consumed + InFlightBytes(r.wire)
    ensures Received(r.reader) + r.dropped + InFlightFds(r.wire) == Received(reader) + InFlightFds(wire)
    ensures Valid(reader) ==> Valid(r.reader)
    ensures r.reader.outbound == reader.outbound && r.reader.bufferSize == reader.bufferSize
    ensures limit == 0 ==> r == ReadStep(reader, wire, Success(0), [], [])
    ensures limit > 0 && wire == [] && eof ==> r.ret == Success(-1) && r.wire == []
    ensures limit > 0 && wire == [] && !eof ==> r.ret == Failure(WouldBlock) && r.wire == []
    ensures r.ret.Success? && r.ret.value >= 0 ==> r.ret.value == |r.consumed| <= limit
    ensures limit > 0 && wire != [] && wire[0].data != [] ==> |r.consumed| > 0
    ensures limit > 0 && wire != [] ==>
              || r.wire == wire[1..]
              || (|r.wire| == |wire| && r.wire[0].fds == [] && r.wire[1..] == wire[1..] && |r.consumed| > 0)
    ensures limit > 0 && wire != [] && |wire[0].fds| <= p.capacity(reader.bufferSize) ==>
              r.ret.Success? && r.dropped == [] && Received(r.reader) == Received(reader) + wire[0].fds
    ensures limit > 0 && wire != [] ==>
              && (r.ret.Failure? <==> |wire[0].fds| > p.capacity(reader.bufferSize) && p.raisesOnTruncation)
              && (r.ret.Failure? ==> r.reader == reader && r.dropped == wire[0].fds)
              && (r.ret.Success? ==> Received(r.reader) == Received(reader) + Surfaced(p, reader, wire[0].fds))
  {
    if limit == 0 then ReadStep(reader, wire, Success(0), [], [])
    else if wire == [] then
      ReadStep(reader, wire, if eof then Success(-1) else Failure(WouldBlock), [], [])
    else
      var (rest, consumed) := SplitHead(wire, limit);
      ReceiveHead(p, reader, wire[0].fds, rest, consumed)
  }

  /**
   * Takes up to `limit` bytes of the head write off the wire: what is left of the wire, and
   * the bytes taken. A partly read write stays at the head without its descriptors.
   */
  function SplitHead(wire: seq<Segment>, limit: nat): (r: (seq<Segment>, seq<Byte>))
    requires wire != [] && limit > 0
    ensures InFlightBytes(wire) == r.1 + InFlightBytes(r.0)
    ensures InFlightFds(r.0) == InFlightFds(wire[1..])
    ensures |r.1| <= limit && (wire[0].data != [] ==> |r.1| > 0)
    ensures || r.0 == wire[1..]
            || (|r.0| == |wire| && r.0[0].fds == [] && r.0[1..] == wire[1..] && |r.1| > 0)
  {
    var head := wire[0];
    var n := if limit < |head.data| then limit else |head.data|;
    var rest := if n == |head.data| then wire[1..] else [Segment(head.data[n..], [])] + wire[1..];
    assert InFlightBytes(wire) == head.data[..n] + InFlightBytes(rest) by {
      if n < |head.data| {
        assert rest[1..] == wire[1..];
      }
    }
    assert InFlightFds(rest) == InFlightFds(wire[1..]) by {
      if n < |head.data| {
        assert rest[1..] == wire[1..];
      }
    }
    (rest, head.data[..n])
  }

  /**
   * Hands the descriptors of the head write to the read hook: on failure they are all
   * dropped, otherwise those that did not fit are.
   */
  function ReceiveHead(p: Platform, reader: Support, fds: Batch, rest: seq<Segment>, consumed: seq<Byte>): (r: ReadStep)
    ensures Received(r.reader) + r.dropped == Received(reader) + fds
    ensures r.wire == rest && r.consumed == consumed
    ensures Valid(reader) ==> Valid(r.reader)
    ensures r.reader.outbound == reader.outbound && r.reader.bufferSize == reader.bufferSize
    ensures r.ret.Success? ==> r.ret == Success(|consumed|)
    ensures |fds| <= p.capacity(reader.bufferSize) ==>
              r.ret.Success? && r.dropped == [] && Received(r.reader) == Received(reader) + fds
    ensures r.ret.Failure? <==> |fds| > p.capacity(reader.bufferSize) && p.raisesOnTruncation
    ensures r.ret.Failure? ==> r.reader == reader && r.dropped == fds
    ensures r.ret.Success? ==> Received(r.reader) == Received(reader) + Surfaced(p, reader, fds)
  {
    match OnReceive(p, reader, fds)
    case Failure(e) =>
      ReadStep(reader, rest, Failure(e), consumed, fds)
    case Success(next) =>
      var k := |Surfaced(p, reader, fds)|;
      assert Surfaced(p, reader, fds) + fds[k..] == fds;
      ReadStep(next, rest, Success(|consumed|), consumed, fds[k..])
  }

  /**
   * A reader that reads the whole stream in chunks of `limit` bytes and drains after every
   * read observes exactly the bytes that were written and exactly the descriptors that were
   * sent, in order, each once — provided every batch fits its receive buffer.
   */
  method ReadToEnd(p: Platform, reader: Support, wire: seq<Segment>, limit: nat)
      returns (data: seq<Byte>, fds: Batch, last: Support)
    requires limit > 0
    requires Received(reader) == []
    requires forall i :: 0 <= i < |wire| ==> |wire[i].fds| <= p.capacity(reader.bufferSize)
    ensures data == InFlightBytes(wire)
    ensures fds == InFlightFds(wire)
    ensures Received(last) == [] && last.bufferSize == reader.bufferSize
  {
    var w := wire;
    var rd := reader;
    data, fds := [], [];
    while w != []
      invariant data + InFlightBytes(w) == InFlightBytes(wire)
      invariant fds + InFlightFds(w) == InFlightFds(wire)
      invariant Received(rd) == [] && rd.bufferSize == reader.bufferSize
      invariant forall i :: 0 <= i < |w| ==> |w[i].fds| <= p.capacity(rd.bufferSize)
      decreases |InFlightBytes(w)| + |w|
    {
      var step := ReadOnce(p, rd, w, true, limit);
      FittingRead(p, rd, w, limit);
      var drained := Drain(step.reader);
      ConcatAssoc(data, step.consumed, InFlightBytes(step.wire));
      ConcatAssoc(fds, w[0].fds, InFlightFds(step.wire));
      data := data + step.consumed;
      match drained.1 {
        case Some(b) => fds := fds + b;
        case None =>
      }
      rd, w := drained.0, step.wire;
    }
    last := rd;
  }

  /**
   * One read of a stream whose every batch fits the receive buffer: the head batch surfaces
   * whole, the rest still fits, and the stream gets shorter.
   */
  lemma FittingRead(p: Platform, rd: Support, w: seq<Segment>, limit: nat)
    requires limit > 0 && w != [] && Received(rd) == []
    requires forall i :: 0 <= i < |w| ==> |w[i].fds| <= p.capacity(rd.bufferSize)
    ensures var st := ReadOnce(p, rd, w, true, limit);
            && st.dropped == [] && Received(st.reader) == w[0].fds && st.reader.bufferSize == rd.bufferSize
            && InFlightBytes(w) == st.consumed + InFlightBytes(st.wire)
            && InFlightFds(w) == w[0].fds + InFlightFds(st.wire)
            && (forall i :: 0 <= i < |st.wire| ==> |st.wire[i].fds| <= p.capacity(rd.bufferSize))
            && |InFlightBytes(st.wire)| + |st.wire| < |InFlightBytes(w)| + |w|
  {
    var st := ReadOnce(p, rd, w, true, limit);
    assert |w[0].fds| <= p.capacity(rd.bufferSize);
    if st.wire != w[1..] {
      forall i | 1 <= i < |st.wire|
        ensures st.wire[i] == w[i]
      {
        assert st.wire[i] == st.wire[1..][i - 1];
      }
    }
  }

  lemma ConcatAssoc<T>(a: seq<T>, b: seq<T>, c: seq<T>)
    ensures (a + b) + c == a + (b + c)
  {
  }

  /**
   * Both ends of the connection. `sent`, `handedOut` and `discarded` are bookkeeping for the
   * proofs: the descriptors put on the wire, those returned by drains, and those the reader's
   * kernel or `clearReceivedFileDescriptors` threw away.
   */
  datatype Link = Link(writer: Support, reader: Support, wire: seq<Segment>, eof: bool,
                       sent: multiset<Fd>, handedOut: multiset<Fd>, discarded: multiset<Fd>)

  /** A freshly connected pair. */
  function Connected(): (l: Link)
    ensures !HasOutbound(l.writer) && Received(l.reader) == [] && l.reader.bufferSize == 0
    ensures l.wire == [] && !l.eof
  {
    Link(Fresh(), Fresh(), [], false, multiset{}, multiset{}, multiset{})
  }

  /** What the application does on either end. */
  datatype Op =
    | Stage(fds: Option<Batch>)           // writer: setOutboundFileDescriptors
    | QueryOutbound                       // writer: hasOutboundFileDescriptors
    | Write(data: seq<Byte>, os: OsResult) // writer: OutputStream.write; `os` is the send's outcome
    | CloseOutput                         // writer: closes its output stream
    | SetBufferSize(size: nat)            // reader: setAncillaryReceiveBufferSize
    | QueryBufferSize                     // reader: getAncillaryReceiveBufferSize
    | Read(limit: nat)                    // reader: InputStream.read into `limit` bytes
    | DrainReceived                       // reader: getReceivedFileDescriptors
    | ClearReceived                       // reader: clearReceivedFileDescriptors

  /** What the application observes. */
  datatype Obs = Done | Flag(b: bool) | Count(n: int) | Got(data: seq<Byte>) | EndOfStream
               | Fds(fds: Option<Batch>) | Fail(e: Error)

  function Step(p: Platform, l: Link, op: Op): (r: (Link, Obs))
    ensures op.Write? && !l.eof && op.data != [] ==> !HasOutbound(r.0.writer)
    ensures op.Write? && !l.eof && op.data != [] && op.os.OsOk? ==>
              && r.0.wire == l.wire + [Segment(op.data, l.writer.outbound)]
              && r.0.reader == l.reader && !r.0.eof && r.1 == Count(|op.data|)
    ensures op.Write? && !l.eof && op.data != [] && op.os.OsFail? ==>
              r.0.wire == l.wire && r.0.reader == l.reader && r.1 == Fail(op.os.error)
    ensures op.Stage? ==> r.0 == l.(writer := SetOutbound(l.writer, op.fds)) && r.1 == Done
    ensures op.DrainReceived? ==> Received(r.0.reader) == [] && r.1 == Fds(Drain(l.reader).1)
  {
    match op
    case Stage(fds) => (l.(writer := SetOutbound(l.writer, fds)), Done)
    case QueryOutbound => (l, Flag(HasOutbound(l.writer)))
    case Write(data, os) =>
      if l.eof then (l, Fail(SocketError(SocketIsClosed)))
      else if data == [] then (l, Count(0))
      else
        var (w, b) := TakeOutbound(l.writer);
        (match os
         case OsOk => (l.(writer := w, wire := l.wire + [Segment(data, b)], sent := l.sent + multiset(b)), Count(|data|))
         case OsFail(e) => (l.(writer := w), Fail(e)))
    case CloseOutput => (l.(eof := true), Done)
    case SetBufferSize(size) => (l.(reader := SetReceiveBufferSize(l.reader, size)), Done)
    case QueryBufferSize => (l, Count(l.reader.bufferSize))
    case Read(limit) => ReadLink(p, l, limit)
    case DrainReceived =>
      var (s, got) := Drain(l.reader);
      (l.(reader := s, handedOut := l.handedOut + multiset(got.GetOr([]))), Fds(got))
    case ClearReceived =>
      (l.(reader := Ancillary.ClearReceived(l.reader), discarded := l.discarded + multiset(Received(l.reader))), Done)
  }

  /** The reader's `InputStream.read`, applied to the connection. */
  function ReadLink(p: Platform, l: Link, limit: nat): (r: (Link, Obs))
    ensures Conserved(l) ==> Conserved(r.0)
  {
    var st := ReadOnce(p, l.reader, l.wire, l.eof, limit);
    var next := l.(reader := st.reader, wire := st.wire, discarded := l.discarded + multiset(st.dropped));
    SplitMultiset(Received(st.reader), st.dropped, InFlightFds(st.wire), Received(l.reader), InFlightFds(l.wire));
    Rebalance(l.handedOut, multiset(Received(l.reader)), multiset(InFlightFds(l.wire)), l.discarded, l.sent,
              multiset(Received(st.reader)), multiset(st.dropped), multiset(InFlightFds(st.wire)));
    (next, match st.ret
           case Failure(e) => Fail(e)
           case Success(n) => if n < 0 then EndOfStream else Got(st.consumed))
  }

  /** Runs a trace of operations, collecting one observation per operation. */
  function Run(p: Platform, l: Link, ops: seq<Op>): (r: (Link, seq<Obs>))
    ensures |r.1| == |ops|
    ensures ops != [] ==> r.1[0] == Step(p, l, ops[0]).1
    decreases |ops|
  {
    if ops == [] then (l, [])
    else
      var (next, o) := Step(p, l, ops[0]);
      var (last, obs) := Run(p, next, ops[1..]);
      (last, [o] + obs)
  }

  /**
   * A run is the chain of its steps: given the link after every step and what every step
   * observed, the run ends in the last link and observes exactly those observations.
   */
  lemma {:induction false} Replay(p: Platform, links: seq<Link>, ops: seq<Op>, obs: seq<Obs>)
    requires |links| == |ops| + 1 && |obs| == |ops|
    requires forall i :: 0 <= i < |ops| ==> Step(p, links[i], ops[i]) == (links[i + 1], obs[i])
    ensures Run(p, links[0], ops) == (links[|ops|], obs)
    decreases |ops|
  {
    if ops != [] {
      assert Step(p, links[0], ops[0]) == (links[1], obs[0]);
      Replay(p, links[1..], ops[1..], obs[1..]);
      assert [obs[0]] + obs[1..] == obs;
    }
  }

  /** Running two traces one after the other is running their concatenation. */
  lemma {:induction false} RunConcat(p: Platform, l: Link, a: seq<Op>, b: seq<Op>)
    ensures var first := Run(p, l, a);
            var second := Run(p, first.0, b);
            Run(p, l, a + b) == (second.0, first.1 + second.1)
    decreases |a|
  {
    if a == [] {
      assert a + b == b;
      assert [] + Run(p, l, b).1 == Run(p, l, b).1;
    } else {
      var ab := a + b;
      assert ab[0] == a[0] && ab[1..] == a[1..] + b;
      var st := Step(p, l, a[0]);
      RunConcat(p, st.0, a[1..], b);
      var mid := Run(p, st.0, a[1..]);
      var fin := Run(p, mid.0, b);
      assert Run(p, l, a) == (mid.0, [st.1] + mid.1);
      assert Run(p, l, ab) == (fin.0, [st.1] + (mid.1 + fin.1));
      ConcatAssoc([st.1], mid.1, fin.1);
    }
  }

  /**
   * Stage a batch, write, read and drain: on an open connection with nothing in flight and
   * nothing pending, when the batch fits the reader's buffer, the drain after the first read
   * returns exactly the staged batch, and the read returns a non-empty prefix of the bytes.
   */
  lemma StagedBatchArrives(p: Platform, l: Link, b: Batch, data: seq<Byte>, limit: nat)
    requires !l.eof && l.wire == [] && Received(l.reader) == []
    requires 0 < |b| <= p.capacity(l.reader.bufferSize)
    requires data != [] && limit > 0
    ensures var obs := Run(p, l, [Stage(Some(b)), Write(data, OsOk), Read(limit), DrainReceived]).1;
            && obs[0] == Done && obs[1] == Count(|data|)
            && obs[2].Got? && 0 < |obs[2].data| <= limit && obs[2].data <= data
            && obs[3] == Fds(Some(b))
  {
    var ops := [Stage(Some(b)), Write(data, OsOk), Read(limit), DrainReceived];
    var (l1, o1) := Step(p, l, ops[0]);
    var (l2, o2) := Step(p, l1, ops[1]);
    assert l2.wire == [Segment(data, b)];
    var (l3, o3) := Step(p, l2, ops[2]);
    ReadOfOneWrite(p, l2, b, data, limit);
    var (l4, o4) := Step(p, l3, ops[3]);
    Replay(p, [l, l1, l2, l3, l4], ops, [o1, o2, o3, o4]);
  }

  /** The first read of a single write whose batch fits: some of its bytes, and its whole batch. */
  lemma ReadOfOneWrite(p: Platform, l: Link, b: Batch, data: seq<Byte>, limit: nat)
    requires l.wire == [Segment(data, b)] && Received(l.reader) == []
    requires |b| <= p.capacity(l.reader.bufferSize)
    requires data != [] && limit > 0
    ensures var (next, o) := Step(p, l, Read(limit));
            && o.Got? && 0 < |o.data| <= limit && o.data <= data
            && Received(next.reader) == b
  {
    assert InFlightBytes(l.wire) == data by {
      assert l.wire[1..] == [];
    }
    var st := ReadOnce(p, l.reader, l.wire, l.eof, limit);
    assert st.ret == Success(|st.consumed|) && 0 < |st.consumed| <= limit;
    assert Received(st.reader) == b by {
      assert [] + b == b;
    }
    assert st.consumed <= data by {
      assert data == st.consumed + InFlightBytes(st.wire);
    }
    assert ReadLink(p, l, limit).0.reader == st.reader;
    assert ReadLink(p, l, limit).1 == Got(st.consumed);
    assert Step(p, l, Read(limit)) == ReadLink(p, l, limit);
  }

  /**
   * Every descriptor put on the wire is, exactly once, either handed to the application by a
   * drain, still pending, still in flight, or discarded.
   */
  ghost predicate Conserved(l: Link) {
    l.handedOut + multiset(Received(l.reader)) + multiset(InFlightFds(l.wire)) + l.discarded == l.sent
  }

  lemma ConnectedConserved()
    ensures Conserved(Connected())
  {
  }

  lemma StepConserves(p: Platform, l: Link, op: Op)
    requires Conserved(l)
    ensures Conserved(Step(p, l, op).0)
  {
    match op
    case Write(data, os) => WriteConserves(p, l, data, os);
    case DrainReceived =>
    case ClearReceived =>
    case _ =>
  }

  lemma WriteConserves(p: Platform, l: Link, data: seq<Byte>, os: OsResult)
    requires Conserved(l)
    ensures Conserved(Step(p, l, Write(data, os)).0)
  {
    if !l.eof && data != [] && os.OsOk? {
      var b := l.writer.outbound;
      InFlightAppend(l.wire, Segment(data, b));
      assert multiset(InFlightFds(l.wire + [Segment(data, b)])) == multiset(InFlightFds(l.wire)) + multiset(b);
    }
  }

  /** Moving descriptors between the pending, in-flight and discarded parts keeps the total. */
  lemma Rebalance(h: multiset<Fd>, r: multiset<Fd>, i: multiset<Fd>, d: multiset<Fd>, s: multiset<Fd>,
                  r2: multiset<Fd>, dr: multiset<Fd>, i2: multiset<Fd>)
    requires r2 + dr + i2 == r + i
    ensures h + r + i + d == s ==> h + r2 + i2 + (d + dr) == s
  {
    if h + r + i + d == s {
      forall x
        ensures (h + r2 + i2 + (d + dr))[x] == s[x]
      {
        assert (r2 + dr + i2)[x] == (r + i)[x];
        assert (h + r + i + d)[x] == s[x];
      }
    }
  }

  lemma SplitMultiset(a: Batch, b: Batch, c: Batch, d: Batch, e: Batch)
    requires a + b + c == d + e
    ensures multiset(a) + multiset(b) + multiset(c) == multiset(d) + multiset(e)
  {
    assert multiset(a + b + c) == multiset(d + e);
  }

  lemma {:induction false} RunConserves(p: Platform, l: Link, ops: seq<Op>)
    requires Conserved(l)
    ensures Conserved(Run(p, l, ops).0)
    decreases |ops|
  {
    if ops != [] {
      StepConserves(p, l, ops[0]);
      RunConserves(p, Step(p, l, ops[0]).0, ops[1..]);
    }
  }

  /** Whatever the trace, no descriptor is handed to the application more often than it was sent. */
  lemma NeverDuplicated(p: Platform, ops: seq<Op>)
    ensures Run(p, Connected(), ops).0.handedOut <= Run(p, Connected(), ops).0.sent
  {
    ConnectedConserved();
    RunConserves(p, Connected(), ops);
  }
}
